=== FILE: README.md ===
# volto-slate core, modelled in Dafny

volto-slate is a rich-text block editor for the Volto CMS, built on the Slate
editor library. A document is a tree of elements: each has a type, an optional
space-separated `styleName`, and children. The leaves are text runs: a `text`
string plus mark keys such as `bold` or `style-big`. Each text block of a Volto
page holds one such tree. This project models the decision logic of that
editor as pure Dafny functions and proves properties of them.

- **Flatten** (`src/utils.js`) covers four things:
  - `recursive`, which flattens a tree into its text runs;
  - `textsMatch`;
  - the single-pass `compactAndNormalize`;
  - the runs that `convertAllToParagraph` inserts.
- **Cursor** (`src/utils.js`) holds `isCursorAtBlockStart` and `isCursorAtBlockEnd`.
- **Lists** (`src/utils.js`) holds the `toggleList` branch table and `unwrapList`. Each is the sequence of editor transforms it requests.
- **Selection** models Slate's `Editor.nodes` query over the selection, in modes `all` and `highest`. A node is visited when its path compares at or after the selection start and at or before its end (Slate's `Path.compare`); a subtree is entered only below a visited node.
- **Styles** (`src/utils/blocks.js`, `src/utils.js`) covers:
  - `styleName` token toggling, `toggleBlockStyleInSelection` and `isBlockStyleActive`;
  - the inline `style-` marks, `toggleInlineStyleInSelection` and `isInlineStyleActive`;
  - `isMarkActive` and `toggleMark`.
- **Blocks** (`src/utils/blocks.js`) covers:
  - the `toggleBlock` / `toggleBlockStyle` / `toggleInlineStyle` dispatch;
  - `toggleFormat`, `changeBlockToList`, `toggleInlineFormat` and `createEmptyParagraph`.
- **Join** (`src/TextBlock/keyboard/joinBlocks.js`) models the Backspace/Delete handlers that merge a text block into its neighbour. Each handler is a function returning the trace of calls it makes. Deferred calls carry the timer stage they run in.
- **Render** (`src/editor/render.jsx`) covers `serializeNodesToText`, the class names and view-mode soft-break segmentation of `Leaf`, and the component and class of `Element`.
- **Link** (`src/editor/plugins/Link/render.jsx`) computes the `href` of a link element. Its JavaScript values are modelled explicitly, so truthiness, `||` and optional chaining follow the language.
- **Strings**, **Tree** and **Wrappers** are shared definitions:
  - JavaScript `split`/`join` on one character, with their round-trip lemmas;
  - the document tree and its paths;
  - `Option`, and `Eval`, which stands for a call that may raise.

Slate transforms (`setNodes`, `wrapNodes`, `unwrapNodes`, `addMark`, …) and
volto-slate helpers defined outside these files are returned as operation
tokens (`Blocks.Op`, `Lists.ListStep`, `Styles.MarkOp`, `Join.Call`). They are
not executed, except in three places where the model computes the effect:
- the `styleName` rewrite of `toggleBlockStyleInSelection`;
- a mark request on one run;
- a coarse list-shape interpretation of the list toggle.

Four behaviours of the code are worth knowing before reading the lemmas:
- `compactAndNormalize` is a single pass and is not idempotent: three matching
  runs become two (`Flatten.NormalizeNotIdempotent`).
- A block-style toggle over a selection with mixed state flips each block on
  its own; it does not unify them (`Styles.MixedSelectionFlipsPerNode`).
- The list toggle's unwraps and conversion use ranges from `getMaxRange`,
  which spans top-level node [0] only. `convertAllToParagraph` collects the
  runs of the whole editor but removes only node [0] before inserting them,
  so the other top-level nodes stay and their text appears a second time.
- The toggle's two wraps have no explicit position and act on the
  selection. The conversion removes the node holding the selection, so a
  wrap that follows it without a new `selectAll` misses node [0]. See
  "## Findings".

## Model

| member | source | states |
|---|---|---|
| Flatten.Recursive | src/utils.js:218 | A text run flattens to exactly one copy of itself. |
| Flatten.RecursiveIsLeaves | src/utils.js:217-238 | The two-level loop of `recursive` yields exactly the text runs below the node in document order (equal to an independent reference flattening). |
| Flatten.ChildrenOutputIsLeaves | src/utils.js:223-235 | The outer loop over an element's children yields a text child as itself and an element child as the flattening of its children, in order. |
| Flatten.RecursiveEachIsLeaves | src/utils.js:228-233 | The inner loop appends the flattening of each grandchild in order. |
| Flatten.FlattenSpellsText | src/utils.js:217-238 | The flattened runs' texts concatenate to the node's full text. |
| Flatten.FlattenEditor | src/utils.js:288 | Flattening the editor yields the runs of all top-level nodes, spelling the whole document text. |
| Flatten.TextsMatchProperties | src/utils.js:241-264 | Matching ignores `text`, is symmetric, and fails exactly when some key present in both runs holds different values. |
| Flatten.TextsMatchNotTransitive | src/utils.js:241-264 | A plain run matches both a bold and a non-bold run, which do not match each other. |
| Flatten.TextsMatchAsWritten | src/utils.js:245-261 | As written, the check raises whenever either run has a key besides `text`; otherwise it reports a match. |
| Flatten.TextsMatchAsWrittenThrowsOnMarks | src/utils.js:247 | A bold run next to a plain run raises as written although the two match by intent. |
| Flatten.CompactPassBounds | src/utils.js:268-277 | One pass preserves the in-order text, never adds runs, removes at most half of them, and gives an empty list only for an empty list. |
| Flatten.CompactPassFixedPoint | src/utils.js:268-277 | The pass leaves a list unchanged exactly when no two neighbouring runs match. |
| Flatten.NormalizeBounds | src/utils.js:267-284 | The output is never empty, an empty input becomes exactly one empty run, the text is preserved, and the run count never grows. |
| Flatten.SpliceStep | src/utils.js:272-276 | One loop step (merge and splice, or advance) keeps the prefix plus the pass over the rest equal to the pass over the whole. |
| Flatten.CompactAndNormalize | src/utils.js:267-284 | The in-place splicing loop computes exactly the single left-to-right pass plus the empty-list fix, and keeps the text. Its size bounds follow from `Flatten.NormalizeBounds`. |
| Flatten.ThreeMatchingRunsBecomeTwo | src/utils.js:268-277 | Three mutually matching runs become two runs, because the index advances after a merge. |
| Flatten.NormalizeNotIdempotent | src/utils.js:268-277 | A second pass over that result merges again, so the compaction is not idempotent. |
| Flatten.ParagraphRuns | src/utils.js:286-289 | The runs placed in the fresh paragraph are non-empty and spell the whole document text. |
| Flatten.CompactPassAsWrittenRaises | src/utils.js:267-277 | As written, the pass raises exactly when a run it compares has a mark; every run is compared except the last of an odd-length list. When it does not raise it equals the intended pass. |
| Flatten.PlainRunsCompactAsIntended | src/utils.js:267-277 | On runs without marks the pass as written gives the intended result. |
| Flatten.ParagraphRunsAsWritten | src/utils.js:286-289 | As written, the conversion raises exactly when a compared run of the flattened editor has a mark; otherwise it inserts the intended runs. |
| Flatten.ConversionRaisesOnFormattedText | src/utils.js:286-289 | A paragraph of two bold runs: the intended conversion inserts one merged bold run, while the code as written raises. |
| Tree.LastEntry | src/utils.js:192 | `Node.last` from the root reaches a node that resolves at its path and is a text run or a childless element; when it is a text run it is the document's last run. It stays at the root only for an empty editor. |
| Cursor.AtBlockEndIff | src/utils.js:184-204 | At block end exactly when the selection is collapsed, its anchor addresses the tree's last leaf, and its offset is that leaf's text length. |
| Cursor.AtBlockEndThrows | src/utils.js:193-200 | The end test raises only for an anchor that does not resolve, or that resolves to a last node which is not a text run. |
| Cursor.NotCollapsedNeverAtBoundary | src/utils.js:165-204 | An expanded or missing selection is neither at block start nor at block end. |
| Cursor.TreeStartIsBlockStart | src/utils.js:165-182 | A cursor at offset 0 of the tree's first text run is at block start. |
| Cursor.BlockStartNotTreeStart | src/utils.js:170-177 | Only the top-level index is examined: offset 0 of the second run of the first paragraph also counts as block start. |
| Cursor.EmptyTreeIsStartAndEnd | src/utils.js:165-204 | In a paragraph holding one empty run, a cursor there is both at start and at end. |
| Lists.UnwrapList | src/utils.js:302-335 | Unless the selection is expanded and `unwrapFromList` is set, it first unwraps list items and then both list types. It ends by replacing node [0] with one paragraph of all the runs exactly when no re-wrap follows. It never wraps. |
| Lists.ToggleListShape | src/utils.js:343-399 | It always selects first. It converts node [0] to one paragraph and stops exactly when the requested list type is the only active one. Every other case ends with the wrap into `typeList` and the per-node list-item wrap. |
| Lists.ToggleListUnwrapPhase | src/utils.js:383-386 | Outside the early returns, the unwrap phase converts node [0] to one paragraph exactly when the bulleted list is active (`willWrapAgain = !isBulletedActive`). |
| Lists.SwitchListTypeAsymmetry | src/utils.js:365-386 | Numbered to bulleted keeps the structure, while bulleted to numbered first replaces node [0] by one paragraph of all the runs. |
| Lists.ToggleListConverts | src/utils.js:343-389 | The toggle runs `convertAllToParagraph` exactly when the bulleted list is active, or the request is numbered, or the request is bulleted while the numbered list is not active. |
| Lists.ToggleListOutcome | src/utils.js:286-399 | From any state, node [0] ends as a plain paragraph when the request is the only active type, or when the bulleted list is active. The second case arises because the unwrap phase converts after the last `selectAll` and the wrap then misses node [0]. Every other request leaves node [0] a list of the requested type. |
| Lists.BulletedToNumberedLosesList | src/utils.js:383-389 | Switching from the bulleted list to the numbered one, which does not turn the list off, leaves node [0] a plain paragraph as written. |
| Lists.ReselectingDiffersByOneStep | src/utils.js:381-389 | The corrected toggle differs from the one as written only by a `selectAll` inserted between the unwrap phase and the wraps. |
| Lists.ReselectingOutcome | src/utils.js:340-399 | With the selection restored before the wraps, only the request for the only active type leaves a paragraph. Every other request, the bulleted-to-numbered switch included, leaves node [0] a list of the requested type. |
| Selection.NodesAllExact | src/utils/blocks.js:14-16 | Mode `all` yields an entry exactly when its node is the node at its path, the path lies in the window, and the callback accepts the node: nothing is missed and nothing is invented. |
| Selection.SelectedAllExact | src/utils/blocks.js:14-16 | At the editor's selection, `Entry(n, p)` is yielded exactly when `n` is the node at `p`, `p` is in the window, and the callback accepts `n`. |
| Selection.CompareExtend | src/utils/blocks.js:14-16 | A path strictly before or after another stays so when extended, so a subtree outside the window holds no visited node. |
| Selection.NodesHighest | src/utils/blocks.js:22-27 | Mode `highest` yields only visited nodes satisfying the callback. |
| Styles.Without | src/utils/blocks.js:264 | Filtering removes every copy of the style and keeps only tokens already present. |
| Styles.ToggleStyleName | src/utils/blocks.js:258-269 | A node without a string `styleName` gets exactly the style. A present token is removed with the others kept in order. An absent one is appended. Membership of a valid token flips. |
| Styles.ToggleKeepsOtherTokens | src/utils/blocks.js:262-268 | Other non-empty tokens survive a toggle unchanged and in order. |
| Styles.ToggleTwiceRestores | src/utils/blocks.js:258-269 | Toggling an absent token twice restores the original `styleName`. |
| Styles.SetStyleNameAt | src/utils/blocks.js:270 | At a path that resolves to an element, that element gets the new `styleName` with its type and children kept; other top-level nodes are unchanged; a path that resolves to nothing or to a text run changes nothing. |
| Styles.ApplyTopLevelIsPointwise | src/utils/blocks.js:257-271 | Folding the per-node updates over the top-level entries toggles each node in the window and leaves the rest unchanged. |
| Styles.ToggleBlockStyleEffect | src/utils/blocks.js:247-272 | After the toggle, each top-level node inside the selection is toggled on its own and every other node is unchanged. |
| Styles.ToggleFlipsEachNode | src/utils/blocks.js:247-272 | On each selected element, membership of the style token flips. |
| Styles.MixedSelectionFlipsPerNode | src/utils/blocks.js:257-271 | With one styled and one unstyled block selected, the styled one loses the style and the other gains it. |
| Selection.HighestIsTopLevel | src/utils/blocks.js:22-27 | When every top-level node satisfies the callback (as `!isEditor` does at src/utils/blocks.js:248-255), mode `highest` yields exactly the top-level nodes in the window. |
| Styles.BlockStyleActiveTopLevel | src/utils/blocks.js:21-36 | In a document of styled blocks, the style is active exactly when some top-level node inside the selection has it as a token. |
| Styles.InlineKey | src/utils/blocks.js:238 | The inline key is `style-` followed by the style name. |
| Styles.ToggleInlineStyleInSelection | src/utils/blocks.js:236-245 | The mark is removed exactly when the marks hold a truthy value under the key (the same test as `isInlineStyleActive`). Otherwise it is added with `true`. |
| Styles.InlineToggleTwice | src/utils/blocks.js:236-245 | On a run whose key is absent or `true`, toggling twice restores the run's marks. |
| Styles.InlineToggleTwiceNormalizes | src/utils/blocks.js:240-243 | A key holding another truthy value is removed and comes back as `true`. |
| Styles.ToggleMark | src/utils.js:86-94 | `toggleMark` removes the mark exactly when `isMarkActive` holds, and otherwise adds it with the value `true`. |
| Styles.MarkToggleFlips | src/utils.js:86-94 | One toggle flips whether the mark is active and touches no other key; on a run whose key is absent or `true`, a second toggle restores the marks. |
| Styles.MarkToggleTwiceNormalizes | src/utils.js:86-94 | A `false` mark becomes `true` and then disappears, so the double toggle does not restore it. |
| Styles.MarkActiveStricter | src/utils.js:158 | `isMarkActive` requires exactly `true`: it implies the inline test, but a truthy non-`true` value passes only the inline test. |
| Blocks.CreateEmptyParagraph | src/utils/blocks.js:5-11 | The empty block has the default type and a single empty run. |
| Blocks.ToggleFormatTwice | src/utils/blocks.js:47-54 | On one block, a second toggle returns to the original type exactly when that type was the format or the default. |
| Blocks.SingleBlockActive | src/utils/blocks.js:13-19 | With the selection inside a single block, `isBlockActive` holds exactly when the block has the type. |
| Blocks.ChangeBlockToList | src/utils/blocks.js:85-99 | It retypes to list items exactly when no list item is selected, and always ends by wrapping in the requested list type. |
| Blocks.DispatchCoverage | src/utils/blocks.js:167-181 | Each combination takes one branch. The only uncovered one is list item, wants list and already active. `isActive` matters only in the list-to-list case. |
| Blocks.ToggleBlockTable | src/utils/blocks.js:157-182 | Crossing a list boundary unwraps, changes and deconstructs. Staying outside lists never deconstructs. The tree is left alone exactly in the uncovered case. |
| Blocks.StyleTogglesReachOnlyTwoBranches | src/utils/blocks.js:184-234 | With `wantsList` false only the list-item and plain branches are reached. The inline toggle always toggles the mark. |
| Blocks.BlockActiveIff | src/utils/blocks.js:13-19 | On any tree with a selection, `isBlockActive` holds exactly when some node of the type sits in the selection window. |
| Blocks.FormatTogglesFollowSelection | src/utils/blocks.js:47-83 | `toggleInlineFormat` unwraps and restores the selection exactly when a node of the type lies in the window, and otherwise wraps with splitting. `toggleFormat` then sets the default block type, and otherwise the requested one. |
| Blocks.InlineFormatOnOneBlock | src/utils/blocks.js:64-83 | On one block of runs with the selection inside it, the inline toggle unwraps exactly when that block has the type. |
| Render.SerializeIsLeafTexts | src/editor/render.jsx:113-115 | The plain text is each top-level node's leaf texts joined by newlines. No nodes give `""`; one node gives its text. |
| Render.SerializeAppend | src/editor/render.jsx:113-115 | Serialising two non-empty lists one after the other puts exactly one newline between them. |
| Render.SerializeSplitsBack | src/editor/render.jsx:113-115 | When no node text holds a newline, splitting the plain text on newlines recovers each node's text. |
| Render.LeafClassesCharacterised | src/editor/render.jsx:29-38 | Every `style-` key contributes its suffix. Only the two highlight classes can be added besides, and none in view mode. |
| Render.HighlightClasses | src/editor/render.jsx:29-32 | The highlight classes appear outside view mode exactly when the run is highlighted or selected (or a `style-` key names them). |
| Render.SelectionTypedHighlightIsLost | src/editor/render.jsx:29-32 | A highlight of type `selection` on an unselected run is overwritten by the selection entry and shows no class. |
| Render.WrapLeafs | src/editor/render.jsx:23-27 | The children stay a plain string exactly when no registered leaf renderer names a key of the run. |
| Render.ViewLinesRoundTrip | src/editor/render.jsx:43-58 | In view mode the spans and line breaks read back as the original string, with one break per newline. |
| Render.SegmentsJoin | src/editor/render.jsx:44-58 | A break follows every segment except the last, and the segments are the pieces of the split. |
| Render.RenderLeafShape | src/editor/render.jsx:42-67 | Segmentation happens only in view mode for an unwrapped string child. Otherwise the run is one span with its classes. |
| Render.RenderElement | src/editor/render.jsx:10-17 | The component is the registered one for the type, else `default`. The class name is the element's `styleName`. |
| Link.OptProp | src/editor/plugins/Link/render.jsx:11-13 | Optional access on null or undefined yields undefined instead of raising. |
| Link.OptFirst | src/editor/plugins/Link/render.jsx:11 | Optional indexing on null or undefined yields undefined. |
| Link.Or | src/editor/plugins/Link/render.jsx:19 | `a \|\| b` is one of its operands and is truthy exactly when either is. |
| Link.EmailTakesPrecedence | src/editor/plugins/Link/render.jsx:15-19 | With an email, href is `mailto:` plus the address, plus `?subject=` and the subject only when the subject is truthy, whatever the other fields hold. |
| Link.FallbackOrder | src/editor/plugins/Link/render.jsx:19 | Without an email, href is the external link if truthy, else the internal link if truthy, else `url`. |
| Link.NoDataMeansUrl | src/editor/plugins/Link/render.jsx:8-19 | Without link data, href is the element's `url`. |
| Link.InternalLinkChain | src/editor/plugins/Link/render.jsx:11 | The internal link is the `@id` of the first item of `internal.internal_link`, and undefined when any step is missing. |
| Link.MailToWithSubject | src/editor/plugins/Link/render.jsx:15-18 | An email with a subject gives `mailto:a@b.c?subject=Hi`. |
| Link.MailToEmptySubject | src/editor/plugins/Link/render.jsx:15-18 | An email with an empty subject gives `mailto:a@b.c`. |
| Join.GetBlockEndAsRange | src/TextBlock/keyboard/joinBlocks.js:199-210 | The cursor is collapsed at the last text run of the block's value, with offset equal to its length. It raises for a missing or empty value, or when the last node is not a text run. |
| Join.BlockEndIsCursorAtEnd | src/TextBlock/keyboard/joinBlocks.js:199-210 | The saved backward cursor is exactly where the end-of-block test on that value reports true. |
| Join.HelloCursor | src/TextBlock/keyboard/joinBlocks.js:199-210 | For a neighbour holding the paragraph "Hello", the cursor is offset 5 at path [0, 0]. |
| Join.GatesHaveNoEffect | src/TextBlock/keyboard/joinBlocks.js:17-34 | A failed cursor gate makes no call. A neighbour that is not a `slate` block, a missing one included, gives not-handled with no effect. |
| Join.BackwardJoinCommits | src/TextBlock/keyboard/joinBlocks.js:13-69 | Handled exactly when the gates pass and the end cursor resolves. Then: stop, prevent, merge, save the end cursor, change with the merged tree and its plain text, delete, select — with stages never going back. |
| Join.ForwardJoinCommits | src/TextBlock/keyboard/joinBlocks.js:71-129 | Gated on the end test, which can raise. The saved cursor is the merged selection unchanged, and the commit order is the same. |
| Join.NeighbourGatesPrecedeEffects | src/TextBlock/keyboard/joinBlocks.js:134-164 | In the generic form, a failed validity or kind check leaves only the block-props read and the neighbour lookup. |
| Join.NeighbourMatchesPrevious | src/TextBlock/keyboard/joinBlocks.js:134-225 | The generic form instantiated as in the commented-out definition agrees with the backward handler in status and effects. |
| Join.NeighbourMatchesNext | src/TextBlock/keyboard/joinBlocks.js:134-232 | Likewise for the forward handler, with the start-as-selection cursor. |

## Left out

- Slate's transforms (`setNodes`, `wrapNodes`, `unwrapNodes`, `removeNodes`, `insertNodes`, `insertFragment`, `select`, `addMark`, `removeMark`) are operation tokens. Their tree surgery is foreign library code.
- `Editor.marks` is an input (`Styles.Marks`). A raising `Editor.marks` inside `isMarkActive` is caught, and is the `None` case there.
  - `isInlineStyleActive` and `toggleInlineStyleInSelection` do not catch it, so the raise propagates out of `toggleInlineStyle`. That input is not modelled; in those two functions `None` stands for `null` only.
  - `Styles.MarkActiveStricter` compares the two tests on marks the editor returned.
- `Selection.NodesAll` and `Selection.NodesHighest` descend into void elements, whereas `Editor.nodes` skips their children by default. No typed query here is affected, because a void's children are untyped text runs.
- `Editor.nodes` does not raise for selections whose paths do not resolve. Such selections are not modelled.
- `deconstructToVoltoBlocks`, the backward/forward merges and the neighbour lookups are defined outside these files. The merge is a function parameter, the lookup result is an input, and deconstruction is a token. A lookup result that cannot be destructured would raise; that case is not modelled.
- Timers: the two nested `setTimeout` steps are stages that order the calls. The 100 ms versus 0 ms delays and interleaving with other events are not modelled.
- `console.log` and `console.warn` output is not modelled.
- React output is represented by `Render.Piece` and `Render.ElementView`. Keys, attributes, `UniversalLink` props (`openLinkInNewTab`, `title`) and the edit-mode link span are not modelled. `Render.Child` and `Render.WrapLeafs` take a leaf renderer to return an element, never a bare string; a string returned by a leaf renderer (src/editor/render.jsx:25) would keep the view-mode split of src/editor/render.jsx:43 and is not modelled.
- `Render.LeafClasses` is a set: the order of names in the `classnames` string is not modelled.
- `Render.RenderElement`: a registered type whose component is falsy is treated as registered.
- `serializeNodes` and `serializeNodesToHtml` produce React markup, which is not modelled.
- The legacy `toggleBlock`, `getActiveEntry` and the remaining helpers of `src/utils.js` (fragments, `createAndSelectNewSlateBlock`, list-item insertion) are not part of this model. Neither are `src/components/ElementEditor/index.js` and the Markdown plugin constants.
- `convertAllToParagraph`'s node removal and insertion are a token. Only the runs it inserts are computed (`Flatten.ParagraphRuns`).
- Flatten.CompactAndNormalize: computes the pass with the corrected `Flatten.TextsMatch`. As written, the pass raises as soon as a compared run has a mark (`Flatten.CompactPassAsWrittenRaises`); the two agree on runs without marks (`Flatten.PlainRunsCompactAsIntended`).
- Flatten.ParagraphRuns: the runs the corrected conversion inserts. As written, the conversion raises on formatted text before removing anything (`Flatten.ParagraphRunsAsWritten`, `Flatten.ConversionRaisesOnFormattedText`).
- Lists.ToggleListOutcome: `ListState` tracks the coarse list shape of top-level node [0] and whether the selection lies in it. The unwraps and the conversion reach node [0] through `getMaxRange`; the wraps follow the selection.
  - It does not track the tree the transforms build.
  - It does not record that the other top-level nodes stay and that their text is copied into node [0].
  - It does not track what a wrap does to another top-level node once the selection has left node [0].
  - It takes the conversion to complete. As written, every request that converts (`Lists.ToggleListConverts`) raises when the editor holds formatted text (`Flatten.ParagraphRunsAsWritten`), so the outcome it states, and those of `Lists.SwitchListTypeAsymmetry` and the second row of "## Findings", hold for the code as written on runs without marks only.
- Texts and offsets: the source measures them in UTF-16 code units (`text.length`), while the model counts characters. A text holding characters outside the Basic Multilingual Plane has a larger end offset in the source, and lone surrogates cannot be represented.
- Cursor.IsCursorAtBlockStart: the `!anchor.path` disjunct is not modelled, because a Slate point always carries an array path.
- Styles.SetStyleNameAt: a top-level text run is left unchanged, where `setNodes` would give it a `styleName`; top-level nodes are elements in a normalised editor.
- Blocks.ToggleFormatTwice: proved for an editor holding a single block of text runs, where the selection decides `isBlockActive` completely.
- Link: only own keys of plain objects are read, numbers are whole and non-negative, and objects are converted to strings with the default `toString`.
- Tree.Value: mark values are primitives; object-valued marks, and a `highlightType` holding an object, are not modelled.

## Findings

| source | as written | input that shows it | evidently intended | confidence | as-written member | corrected member |
|---|---|---|---|---|---|---|
| src/utils.js:247 | `aKeys.contains(x)` (and again at line 256): arrays have no `contains`, so the call raises a TypeError as soon as either run has a key besides `text` | `a = {text: 'a', bold: true}`, `b = {text: 'b'}`: raises, though the runs match (`Flatten.TextsMatchAsWrittenThrowsOnMarks`). In consequence `compactAndNormalize`, `convertAllToParagraph` and every list toggle that converts raise on formatted text (`Flatten.ParagraphRunsAsWritten`, `Lists.ToggleListConverts`) | `aKeys.includes(x)`: compare only the keys present in both runs | not executed | Flatten.TextsMatchAsWritten | Flatten.TextsMatch |
| src/utils.js:383-389 | `willWrapAgain = !isBulletedActive` makes `unwrapList` call `convertAllToParagraph` after the last `selectAll`. Its `removeNodes` at [0] takes away the selection's node, so `wrapNodes(editor, list)`, which has no `at`, does not wrap node [0] | `toggleList(editor, {typeList: 'numbered-list', isBulletedActive: true})` on a bulleted list: the content ends as a plain paragraph, not a numbered list (`Lists.BulletedToNumberedLosesList`) | the header comment at line 341 promises to preserve the list structure when going from one list type to another: select node [0] again before the wraps | not executed; medium, since it rests on how Slate moves a selection whose node is removed | Lists.BulletedToNumberedLosesList | Lists.ToggleListReselecting |

=== FILE: blocks.dfy ===
/** The structure engine: block type toggling with its list special cases,
    and the list-aware entry points of the style engine. Each operation
    returns the editor transforms it requests; the transforms and the
    splitting of the result into separate stored blocks
    (`deconstructToVoltoBlocks`) belong to collaborators. */
module Blocks {
  import opened Wrappers
  import opened Tree
  import opened Selection
  import opened Styles

  /** The settings the engine reads. */
  datatype Config = Config(listTypes: seq<string>, listItemType: string, defaultBlockType: string)

  /** A transform requested from the editor library or the block store. */
  datatype Op =
    | UnwrapLists                  // unwrap the enclosing list, splitting it
    | SetType(kind: string)        // set the type of the selected blocks
    | WrapIn(kind: string)         // wrap the selected blocks in a new element
    | Deconstruct                  // split the result into separate stored blocks
    | ToggleBlockStyles(style: string)   // `toggleBlockStyleInSelection`
    | ToggleInlineStyle(style: string)   // `toggleInlineStyleInSelection`
    | UnwrapInline(kind: string)   // unwrap elements of this type, without splitting
    | RestoreSelection             // select and save the range kept across the unwrap
    | WrapInSplit(kind: string)    // wrap the selection, splitting at its edges

  /** `createEmptyParagraph()`: one block of the default type holding one
      empty run. */
  function CreateEmptyParagraph(cfg: Config): (r: Node)
    ensures r.Element? && r.kind == cfg.defaultBlockType && r.styleName.None?
    ensures Leaves(r) == [Text("", map[])] && NodeString(r) == ""
  {
    Element(cfg.defaultBlockType, None, [Text("", map[])])
  }

  /** The callback of `isBlockActive`: an element of the given type. */
  predicate HasType(n: Node, format: string) {
    n.Element? && n.kind == format
  }

  /** `isBlockActive(editor, format)`: some node in the selection, from the
      root down to the leaves, has the type. */
  predicate IsBlockActive(ed: Editor, format: string) {
    |SelectedAll(ed, (n: Node) => HasType(n, format))| > 0
  }

  /** `toggleFormat(editor, format)`: the requested type, or the default
      block type when the requested one is already active. */
  function ToggleFormat(cfg: Config, ed: Editor, format: string): (r: seq<Op>)
    ensures |r| == 1 && r[0].SetType?
    ensures IsBlockActive(ed, format) ==> r[0].kind == cfg.defaultBlockType
    ensures !IsBlockActive(ed, format) ==> r[0].kind == format
  {
    [SetType(if IsBlockActive(ed, format) then cfg.defaultBlockType else format)]
  }

  /** `changeBlockToList(editor, format)`: retype to list items unless a
      list item is already selected; wrap in a list of the type either way. */
  function ChangeBlockToList(cfg: Config, ed: Editor, format: string): (r: seq<Op>)
    ensures |r| >= 1 && r[|r| - 1] == WrapIn(format)
    ensures (SetType(cfg.listItemType) in r) <==> !IsBlockActive(ed, cfg.listItemType)
    ensures Deconstruct !in r
  {
    if !IsBlockActive(ed, cfg.listItemType) then [SetType(cfg.listItemType), WrapIn(format)]
    else [WrapIn(format)]
  }

  /** `toggleFormatAsListItem`, `switchListType` and
      `toggleBlockStyleAsListItem`: unwrap the list, change, deconstruct. */
  function FormatAsListItem(format: string): seq<Op> {
    [UnwrapLists, SetType(format), Deconstruct]
  }

  function SwitchListType(format: string): seq<Op> {
    [UnwrapLists, WrapIn(format), Deconstruct]
  }

  function BlockStyleAsListItem(style: string): seq<Op> {
    [UnwrapLists, ToggleBlockStyles(style), Deconstruct]
  }

  /** The branch taken by the shared if-chain of the three toggles. */
  datatype Branch = AsListItem | SwitchList | ToList | Plain | NotCovered

  /** The if-chain over `(isListItem, wantsList, isActive)`. */
  function Dispatch(isListItem: bool, wantsList: bool, isActive: bool): Branch {
    if isListItem && !wantsList then AsListItem
    else if isListItem && wantsList && !isActive then SwitchList
    else if !isListItem && wantsList then ToList
    else if !isListItem && !wantsList then Plain
    else NotCovered
  }

  /** Every combination takes exactly one branch; the only uncovered one is
      a list item, a list requested, and that list already active; and the
      active flag is read only in that list-to-list case. */
  lemma DispatchCoverage(isListItem: bool, wantsList: bool, isActive: bool)
    ensures Dispatch(isListItem, wantsList, isActive) == NotCovered
            <==> isListItem && wantsList && isActive
    ensures !(isListItem && wantsList) ==>
              Dispatch(isListItem, wantsList, isActive) == Dispatch(isListItem, wantsList, !isActive)
    ensures Dispatch(isListItem, wantsList, isActive) in
              (if isListItem then {AsListItem, SwitchList, NotCovered} else {ToList, Plain})
  {
  }

  /** `toggleBlock(editor, format)`. The uncovered case only warns. */
  function ToggleBlock(cfg: Config, ed: Editor, format: string): seq<Op> {
    var isListItem := IsBlockActive(ed, cfg.listItemType);
    var isActive := IsBlockActive(ed, format);
    var wantsList := format in cfg.listTypes;
    match Dispatch(isListItem, wantsList, isActive)
    case AsListItem => FormatAsListItem(format)
    case SwitchList => SwitchListType(format)
    case ToList => ChangeBlockToList(cfg, ed, format)
    case Plain => ToggleFormat(cfg, ed, format)
    case NotCovered => []
  }

  /** The table of `toggleBlock`: crossing a list boundary deconstructs the
      block, staying outside lists never does, and the tree is left alone
      only in the uncovered case. */
  lemma ToggleBlockTable(cfg: Config, ed: Editor, format: string)
    ensures var r := ToggleBlock(cfg, ed, format);
            var isListItem := IsBlockActive(ed, cfg.listItemType);
            var wantsList := format in cfg.listTypes;
            && (r == [] <==> isListItem && wantsList && IsBlockActive(ed, format))
            && (isListItem && !wantsList ==> r == [UnwrapLists, SetType(format), Deconstruct])
            && (isListItem && wantsList && !IsBlockActive(ed, format) ==>
                  r == [UnwrapLists, WrapIn(format), Deconstruct])
            && (!isListItem ==> Deconstruct !in r && r != [])
            && (!isListItem && wantsList ==> r[|r| - 1] == WrapIn(format))
            && (!isListItem && !wantsList ==> r == ToggleFormat(cfg, ed, format))
  {
  }

  /** `toggleBlockStyle(editor, style)`: the same chain with `wantsList`
      fixed to false; the two list branches are empty in the source. */
  function ToggleBlockStyle(cfg: Config, ed: Editor, style: string): seq<Op> {
    var isListItem := IsBlockActive(ed, cfg.listItemType);
    var isActive := IsBlockStyleActive(ed, style);
    match Dispatch(isListItem, false, isActive)
    case AsListItem => BlockStyleAsListItem(style)
    case SwitchList => []
    case ToList => []
    case Plain => [ToggleBlockStyles(style)]
    case NotCovered => []
  }

  /** `toggleInlineStyle(editor, style)`: both reachable branches toggle the
      mark in the selection. */
  function ToggleInlineStyleOps(cfg: Config, marks: Marks, ed: Editor, style: string): seq<Op> {
    var isListItem := IsBlockActive(ed, cfg.listItemType);
    var isActive := IsInlineStyleActive(marks, style);
    match Dispatch(isListItem, false, isActive)
    case AsListItem => [ToggleInlineStyle(style)]
    case SwitchList => []
    case ToList => []
    case Plain => [ToggleInlineStyle(style)]
    case NotCovered => []
  }

  /** With `wantsList` false only the list-item and plain branches can be
      taken: the style toggles always act, never warn, and ignore whether
      the style is already active. */
  lemma StyleTogglesReachOnlyTwoBranches(cfg: Config, marks: Marks, ed: Editor, style: string)
    ensures forall l: bool, a: bool :: Dispatch(l, false, a) == (if l then AsListItem else Plain)
    ensures ToggleBlockStyle(cfg, ed, style) ==
              if IsBlockActive(ed, cfg.listItemType) then [UnwrapLists, ToggleBlockStyles(style), Deconstruct]
              else [ToggleBlockStyles(style)]
    ensures ToggleInlineStyleOps(cfg, marks, ed, style) == [ToggleInlineStyle(style)]
  {
  }

  /** `toggleInlineFormat(editor, format)`: unwrap an active inline element
      and keep the selection, or wrap the selection in a new one. */
  function ToggleInlineFormat(ed: Editor, format: string): (r: seq<Op>)
    ensures IsBlockActive(ed, format) <==> r == [UnwrapInline(format), RestoreSelection]
    ensures !IsBlockActive(ed, format) <==> r == [WrapInSplit(format)]
  {
    if IsBlockActive(ed, format) then [UnwrapInline(format), RestoreSelection]
    else [WrapInSplit(format)]
  }

  /** No text run is an element, so a type query below a list of runs
      finds nothing. */
  lemma {:induction false} RunsHaveNoType(runs: seq<Run>, prefix: Path, base: nat, sp: Span, format: string)
    ensures NodesAll(runs, prefix, base, sp, (n: Node) => HasType(n, format)) == []
    decreases |runs|
  {
    if runs != [] {
      RunsHaveNoType(runs[1..], prefix, base + 1, sp, format);
    }
  }

  /** In an editor holding one block of runs, with the selection inside it,
      `isBlockActive` reports exactly whether the block has the type. */
  lemma SingleBlockActive(k: string, sn: Option<string>, runs: seq<Run>, sel: Range, format: string)
    requires |sel.anchor.path| >= 1 && sel.anchor.path[0] == 0
    requires |sel.focus.path| >= 1 && sel.focus.path[0] == 0
    ensures IsBlockActive(Editor([Element(k, sn, runs)], Some(sel)), format) <==> k == format
  {
    var ed := Editor([Element(k, sn, runs)], Some(sel));
    var sp := SpanOf(sel);
    var m := (n: Node) => HasType(n, format);
    VisitedTopLevel(0, sp);
    assert [] + [0] == [0];
    RunsHaveNoType(runs, [0], 0, sp, format);
    var cs: seq<Node> := [Element(k, sn, runs)];
    assert cs[1..] == [];
    assert NodesAll(cs, [], 0, sp, m)
           == (if m(cs[0]) then [Entry(cs[0], [0])] else []) + NodesAll(runs, [0], 0, sp, m)
              + NodesAll(cs[1..], [], 1, sp, m);
  }

  /** Some node at path `p` lies in the selection window and has the type. */
  predicate TypedAt(ed: Editor, p: Path, format: string) {
    && ed.selection.Some?
    && NodeAt(ed.children, p).Some?
    && HasType(NodeAt(ed.children, p).value, format)
    && Visited(p, SpanOf(ed.selection.value))
  }

  /** `isBlockActive` over any tree: the type is active exactly when some
      node of that type lies in the selection window. */
  lemma BlockActiveIff(ed: Editor, format: string)
    requires ed.selection.Some?
    ensures IsBlockActive(ed, format) <==> exists p :: TypedAt(ed, p, format)
  {
    var m := (n: Node) => HasType(n, format);
    var found := SelectedAll(ed, m);
    if |found| > 0 {
      SelectedAllExact(ed, m, found[0].node, found[0].path);
      assert TypedAt(ed, found[0].path, format);
    }
    if exists p :: TypedAt(ed, p, format) {
      var p :| TypedAt(ed, p, format);
      SelectedAllExact(ed, m, NodeAt(ed.children, p).value, p);
    }
  }

  /** Both format toggles follow the selection: the inline one unwraps
      (and keeps the selection) exactly when a node of the type lies in the
      window, and otherwise wraps; the block one then falls back to the
      default type, and otherwise sets the requested one. */
  lemma FormatTogglesFollowSelection(cfg: Config, ed: Editor, format: string)
    requires ed.selection.Some?
    ensures (exists p :: TypedAt(ed, p, format)) <==>
              ToggleInlineFormat(ed, format) == [UnwrapInline(format), RestoreSelection]
    ensures !(exists p :: TypedAt(ed, p, format)) <==>
              ToggleInlineFormat(ed, format) == [WrapInSplit(format)]
    ensures ToggleFormat(cfg, ed, format)
            == [SetType(if exists p :: TypedAt(ed, p, format) then cfg.defaultBlockType else format)]
  {
    BlockActiveIff(ed, format);
  }

  /** On one block of runs with the selection inside it, the inline toggle
      unwraps exactly when that block has the type. */
  lemma InlineFormatOnOneBlock(k: string, sn: Option<string>, runs: seq<Run>, sel: Range, format: string)
    requires |sel.anchor.path| >= 1 && sel.anchor.path[0] == 0
    requires |sel.focus.path| >= 1 && sel.focus.path[0] == 0
    ensures ToggleInlineFormat(Editor([Element(k, sn, runs)], Some(sel)), format)
            == if k == format then [UnwrapInline(format), RestoreSelection] else [WrapInSplit(format)]
  {
    SingleBlockActive(k, sn, runs, sel, format);
  }

  /** The type `toggleFormat` sets. */
  function SetKind(ops: seq<Op>): string
    requires |ops| == 1 && ops[0].SetType?
  {
    ops[0].kind
  }

  /** Toggling a format twice on one block: the first toggle sets the format
      (or the default when it was already there); the second returns to the
      original type only when that was the format itself or the default. */
  lemma ToggleFormatTwice(cfg: Config, k: string, sn: Option<string>, runs: seq<Run>, sel: Range, format: string)
    requires |sel.anchor.path| >= 1 && sel.anchor.path[0] == 0
    requires |sel.focus.path| >= 1 && sel.focus.path[0] == 0
    ensures var t1 := SetKind(ToggleFormat(cfg, Editor([Element(k, sn, runs)], Some(sel)), format));
            var t2 := SetKind(ToggleFormat(cfg, Editor([Element(t1, sn, runs)], Some(sel)), format));
            && t1 == (if k == format then cfg.defaultBlockType else format)
            && (t2 == k <==> k == format || k == cfg.defaultBlockType)
  {
    SingleBlockActive(k, sn, runs, sel, format);
    var t1 := SetKind(ToggleFormat(cfg, Editor([Element(k, sn, runs)], Some(sel)), format));
    SingleBlockActive(t1, sn, runs, sel, format);
  }
}

=== FILE: cursor.dfy ===
/** The cursor-at-start and cursor-at-end predicates of the tree utilities,
    used as the gates of the block-join keyboard handlers. */
module Cursor {
  import opened Wrappers
  import opened Tree

  /** `isCursorAtBlockStart`: a collapsed selection in the first top-level
      node at offset 0. Only the top-level index of the path is examined. */
  predicate IsCursorAtBlockStart(ed: Editor) {
    && ed.selection.Some?
    && Collapsed(ed.selection.value)
    && |ed.selection.value.anchor.path| > 0
    && ed.selection.value.anchor.path[0] == 0
    && ed.selection.value.anchor.offset == 0
  }

  /** `isCursorAtBlockEnd`. `Node.get` on the anchor path raises when the
      path does not resolve, and reading `text.length` of the last node
      raises when that node is not a text run; both become Throws. */
  function IsCursorAtBlockEnd(ed: Editor): Eval<bool> {
    if ed.selection.None? || !Collapsed(ed.selection.value) then Value(false)
    else
      var a := ed.selection.value.anchor;
      var last := LastEntry(ed.children);
      if a.path == [] then
        // `Node.get(editor, [])` is the editor itself.
        if last.AtRoot? then Throws else Value(false)
      else if NodeAt(ed.children, a.path).None? then Throws
      else if last.At? && a.path == last.path then
        if last.node.Text? then Value(a.offset == |last.node.text|) else Throws
      else Value(false)
  }

  /** The anchor addresses the last text run of the tree at its end. */
  predicate AnchorAtLastLeafEnd(ed: Editor)
    requires ed.selection.Some?
  {
    var a := ed.selection.value.anchor;
    var last := LastEntry(ed.children);
    last.At? && last.node.Text? && a.path == last.path && a.offset == |last.node.text|
  }

  /** At end exactly when the selection is collapsed, its anchor addresses
      the tree's last leaf and its offset is that leaf's text length. */
  lemma AtBlockEndIff(ed: Editor)
    ensures IsCursorAtBlockEnd(ed) == Value(true) <==>
              ed.selection.Some? && Collapsed(ed.selection.value) && AnchorAtLastLeafEnd(ed)
  {
  }

  /** It raises only for a collapsed selection whose anchor does not
      resolve, or that resolves to the last node when that node is not a
      text run (the root of an empty editor, or an element without
      children). */
  lemma AtBlockEndThrows(ed: Editor)
    ensures IsCursorAtBlockEnd(ed).Throws? <==>
              ed.selection.Some? && Collapsed(ed.selection.value) &&
              var p := ed.selection.value.anchor.path;
              var last := LastEntry(ed.children);
              (p == [] && ed.children == []) ||
              (p != [] && NodeAt(ed.children, p).None?) ||
              (p != [] && last.At? && p == last.path && !last.node.Text?)
  {
    if ed.selection.Some? && Collapsed(ed.selection.value) {
      var p := ed.selection.value.anchor.path;
      var last := LastEntry(ed.children);
      if p != [] && last.At? && p == last.path {
        assert NodeAt(ed.children, p).Some?;
      }
    }
  }

  /** An expanded or missing selection is never at the start or the end. */
  lemma NotCollapsedNeverAtBoundary(ed: Editor)
    requires ed.selection.None? || !Collapsed(ed.selection.value)
    ensures !IsCursorAtBlockStart(ed)
    ensures IsCursorAtBlockEnd(ed) == Value(false)
  {
  }

  /** The first-leaf descent: follow first children down to a text run or
      an element without children. The path is relative to `n`. */
  function FirstDescent(n: Node): (r: (Node, Path))
    ensures r.0.Text? || r.0.children == []
    ensures r.1 == [] ==> r.0 == n
    ensures r.1 != [] ==> n.Element? && r.1[0] == 0 && NodeAt(n.children, r.1) == Some(r.0)
  {
    match n
    case Text(_, _) => (n, [])
    case Element(_, _, cs) =>
      if cs == [] then (n, [])
      else
        var d := FirstDescent(cs[0]);
        (d.0, [0] + d.1)
  }

  /** The very first addressable point of the tree: offset 0 of its first
      text run. */
  predicate AtTreeStart(ed: Editor) {
    && ed.selection.Some?
    && Collapsed(ed.selection.value)
    && ed.children != []
    && var d := FirstDescent(ed.children[0]);
       d.0.Text? && ed.selection.value.anchor == Point([0] + d.1, 0)
  }

  /** A cursor at the very start of the tree is at block start. */
  lemma TreeStartIsBlockStart(ed: Editor)
    requires AtTreeStart(ed)
    ensures IsCursorAtBlockStart(ed)
  {
  }

  /** The converse fails: only the top-level index is examined, so the
      start of the second run of the first paragraph also counts. */
  lemma BlockStartNotTreeStart()
    ensures var ed := Editor([Element("paragraph", None, [Text("a", map[]), Text("b", map["bold" := VBool(true)])])],
                             Some(Range(Point([0, 1], 0), Point([0, 1], 0))));
            IsCursorAtBlockStart(ed) && !AtTreeStart(ed)
  {
    var ed := Editor([Element("paragraph", None, [Text("a", map[]), Text("b", map["bold" := VBool(true)])])],
                     Some(Range(Point([0, 1], 0), Point([0, 1], 0))));
    var a := Text("a", map[]);
    assert FirstDescent(a) == (a, []);
    assert ed.children[0].children[0] == a;
    assert FirstDescent(ed.children[0]) == (a, [0] + []);
    var start: Path := [0] + [0];
    assert start[1] == 0 && ed.selection.value.anchor.path[1] == 1;
    assert ed.selection.value.anchor != Point(start, 0);
  }

  /** A tree without text content still holds one empty run, and a cursor
      there is both at start and at end. */
  lemma EmptyTreeIsStartAndEnd()
    ensures var ed := Editor([Element("paragraph", None, [Text("", map[])])],
                             Some(Range(Point([0, 0], 0), Point([0, 0], 0))));
            IsCursorAtBlockStart(ed) && AtTreeStart(ed) && IsCursorAtBlockEnd(ed) == Value(true)
  {
    var ed := Editor([Element("paragraph", None, [Text("", map[])])],
                     Some(Range(Point([0, 0], 0), Point([0, 0], 0))));
    assert LastEntry(ed.children) == At(Text("", map[]), [0, 0]);
    assert FirstDescent(ed.children[0]) == (Text("", map[]), [0]);
  }
}

=== FILE: flatten.dfy ===
/** Leaf flattening and run compaction from the tree utilities:
    `recursive`, `textsMatch` and `compactAndNormalize`, and the run list
    that `convertAllToParagraph` inserts. */
module Flatten {
  import opened Wrappers
  import opened Tree

  /** `recursive(node)`: a text run yields a copy of itself; an element
      pushes each text child, and for each element child the flattening of
      that child's children, one level of the loop at a time. */
  function Recursive(n: Node): (r: seq<Run>)
    ensures n.Text? ==> r == [n]
    decreases n, 2
  {
    match n
    case Text(_, _) => [n]
    case Element(_, _, cs) => ChildrenOutput(cs)
  }

  /** The outer loop of `recursive` over the children of an element. */
  function ChildrenOutput(cs: seq<Node>): seq<Run>
    decreases cs, 1
  {
    if cs == [] then []
    else
      (match cs[0]
       case Text(_, _) => [cs[0]]
       case Element(_, _, gs) => RecursiveEach(gs))
      + ChildrenOutput(cs[1..])
  }

  /** The inner loop of `recursive`: flatten each grandchild in turn. */
  function RecursiveEach(gs: seq<Node>): seq<Run>
    decreases gs, 0
  {
    if gs == [] then [] else Recursive(gs[0]) + RecursiveEach(gs[1..])
  }

  /** The source's two-level loop computes the reference flattening. */
  lemma {:induction false} RecursiveIsLeaves(n: Node)
    ensures Recursive(n) == Leaves(n)
    decreases n, 2
  {
    match n
    case Text(_, _) =>
    case Element(_, _, cs) => ChildrenOutputIsLeaves(cs);
  }

  lemma {:induction false} ChildrenOutputIsLeaves(cs: seq<Node>)
    ensures ChildrenOutput(cs) == LeavesAll(cs)
    decreases cs, 1
  {
    if cs != [] {
      ChildrenOutputIsLeaves(cs[1..]);
      match cs[0]
      case Text(_, _) =>
      case Element(_, _, gs) => RecursiveEachIsLeaves(gs);
    }
  }

  lemma {:induction false} RecursiveEachIsLeaves(gs: seq<Node>)
    ensures RecursiveEach(gs) == LeavesAll(gs)
    decreases gs, 0
  {
    if gs != [] {
      RecursiveIsLeaves(gs[0]);
      RecursiveEachIsLeaves(gs[1..]);
    }
  }

  /** Flattening yields only text runs (by its type), in document order,
      whose texts concatenate to the node's full text. */
  lemma FlattenSpellsText(n: Node)
    ensures Recursive(n) == Leaves(n)
    ensures Texts(Recursive(n)) == NodeString(n)
  {
    RecursiveIsLeaves(n);
    LeavesSpellString(n);
  }

  /** `recursive(editor)`: the editor is not a text run, so its top-level
      nodes go through the same two-level loop. */
  function FlattenEditor(children: seq<Node>): (r: seq<Run>)
    ensures r == LeavesAll(children)
    ensures Texts(r) == StringAll(children)
  {
    ChildrenOutputIsLeaves(children);
    LeavesAllSpellString(children);
    ChildrenOutput(children)
  }

  /** `textsMatch(a, b)` as intended: the `text` field is ignored, and the
      runs mismatch only on a key that both carry with different values. */
  predicate TextsMatch(a: Run, b: Run) {
    forall x :: x in a.marks && x in b.marks ==> a.marks[x] == b.marks[x]
  }

  lemma TextsMatchProperties(a: Run, b: Run, t: string)
    ensures TextsMatch(a, b) == TextsMatch(b, a)
    ensures TextsMatch(a, b) == TextsMatch(Text(t, a.marks), b)
    ensures !TextsMatch(a, b) <==>
              exists x :: x in a.marks && x in b.marks && a.marks[x] != b.marks[x]
  {
  }

  /** Matching is not transitive: a run without marks matches both a bold
      and an explicitly non-bold run, which do not match each other. */
  lemma TextsMatchNotTransitive()
    ensures var bold := Text("a", map["bold" := VBool(true)]);
            var plain := Text("b", map[]);
            var notBold := Text("c", map["bold" := VBool(false)]);
            TextsMatch(bold, plain) && TextsMatch(plain, notBold)
            && !TextsMatch(bold, notBold)
  {
    var bold := Text("a", map["bold" := VBool(true)]);
    var notBold := Text("c", map["bold" := VBool(false)]);
    assert "bold" in bold.marks && "bold" in notBold.marks;
  }

  /** `textsMatch` as written: it calls `aKeys.contains(x)`, and an Array
      has no `contains` method, so the first key other than `text` raises a
      TypeError. Only two runs without marks get through, and then it says
      they match. */
  function TextsMatchAsWritten(a: Run, b: Run): (r: Eval<bool>)
    ensures r.Throws? <==> (a.marks != map[] || b.marks != map[])
    ensures r.Value? ==> r.v && r.v == TextsMatch(a, b)
  {
    if a.marks != map[] || b.marks != map[] then Throws else Value(true)
  }

  /** The discrepancy: a bold run next to a plain run matches by intent,
      while the code as written raises an error before answering. */
  lemma TextsMatchAsWrittenThrowsOnMarks()
    ensures var bold := Text("a", map["bold" := VBool(true)]);
            var plain := Text("b", map[]);
            TextsMatch(bold, plain) && TextsMatchAsWritten(bold, plain) == Throws
  {
    var bold := Text("a", map["bold" := VBool(true)]);
    assert "bold" in bold.marks;
  }

  /** Merging `b` into `a`: `a` keeps its own marks, the texts concatenate. */
  function MergeRuns(a: Run, b: Run): (r: Run)
    ensures r.text == a.text + b.text && r.marks == a.marks
  {
    Text(a.text + b.text, a.marks)
  }

  /** The single left-to-right pass of `compactAndNormalize`: after a merge
      at index i the index still advances, so the merged run is final and
      comparison resumes with the run two places further on. */
  function CompactPass(rs: seq<Run>): seq<Run>
    decreases |rs|
  {
    if |rs| < 2 then rs
    else if TextsMatch(rs[0], rs[1]) then [MergeRuns(rs[0], rs[1])] + CompactPass(rs[2..])
    else [rs[0]] + CompactPass(rs[1..])
  }

  /** The empty run list is replaced by one run with empty text. */
  function Normalize(rs: seq<Run>): seq<Run> {
    var p := CompactPass(rs);
    if |p| == 0 then [Text("", map[])] else p
  }

  /** The pass keeps the in-order text and shrinks the list by at most half. */
  lemma {:induction false} CompactPassBounds(rs: seq<Run>)
    ensures Texts(CompactPass(rs)) == Texts(rs)
    ensures |CompactPass(rs)| <= |rs|
    ensures 2 * |CompactPass(rs)| >= |rs|
    ensures |CompactPass(rs)| == 0 <==> |rs| == 0
    decreases |rs|
  {
    if |rs| >= 2 {
      if TextsMatch(rs[0], rs[1]) {
        CompactPassBounds(rs[2..]);
        var m := MergeRuns(rs[0], rs[1]);
        assert Texts([m] + CompactPass(rs[2..])) == m.text + Texts(CompactPass(rs[2..]));
        assert Texts(rs) == rs[0].text + Texts(rs[1..]);
        assert Texts(rs[1..]) == rs[1].text + Texts(rs[2..]);
      } else {
        CompactPassBounds(rs[1..]);
        assert Texts([rs[0]] + CompactPass(rs[1..])) == rs[0].text + Texts(CompactPass(rs[1..]));
      }
    }
  }

  /** No two neighbouring runs match. */
  predicate NoAdjacentMatch(rs: seq<Run>) {
    forall i :: 0 <= i < |rs| - 1 ==> !TextsMatch(rs[i], rs[i + 1])
  }

  /** The pass leaves a list unchanged exactly when no neighbours match. */
  lemma {:induction false} CompactPassFixedPoint(rs: seq<Run>)
    ensures CompactPass(rs) == rs <==> NoAdjacentMatch(rs)
    decreases |rs|
  {
    if |rs| >= 2 {
      if TextsMatch(rs[0], rs[1]) {
        CompactPassBounds(rs[2..]);
        assert |CompactPass(rs)| < |rs|;
      } else {
        CompactPassFixedPoint(rs[1..]);
        assert NoAdjacentMatch(rs) <==> NoAdjacentMatch(rs[1..]) by {
          if NoAdjacentMatch(rs[1..]) {
            forall i | 0 <= i < |rs| - 1
              ensures !TextsMatch(rs[i], rs[i + 1])
            {
              if i > 0 {
                assert rs[i] == rs[1..][i - 1] && rs[i + 1] == rs[1..][i];
              }
            }
          }
          if NoAdjacentMatch(rs) {
            forall i | 0 <= i < |rs[1..]| - 1
              ensures !TextsMatch(rs[1..][i], rs[1..][i + 1])
            {
              assert rs[1..][i] == rs[i + 1] && rs[1..][i + 1] == rs[i + 2];
            }
          }
        }
        if CompactPass(rs) == rs {
          assert CompactPass(rs)[1..] == CompactPass(rs[1..]);
        }
      }
    }
  }

  /** What the normalisation guarantees about its output. */
  lemma NormalizeBounds(rs: seq<Run>)
    ensures |Normalize(rs)| >= 1
    ensures rs == [] ==> Normalize(rs) == [Text("", map[])]
    ensures Texts(Normalize(rs)) == Texts(rs)
    ensures rs != [] ==> |Normalize(rs)| <= |rs|
    ensures 2 * |Normalize(rs)| >= |rs|
  {
    CompactPassBounds(rs);
    if rs == [] {
      assert Texts([Text("", map[])]) == "" + Texts([]);
    }
  }

  /** One iteration of the loop of `compactAndNormalize`: merging (or not)
      at index i and advancing keeps "finished prefix, then one pass over
      the rest" equal to one pass over the whole list. */
  lemma SpliceStep(r: seq<Run>, i: nat)
    requires i < |r| - 1
    ensures var r' := if TextsMatch(r[i], r[i + 1])
                      then r[..i] + [MergeRuns(r[i], r[i + 1])] + r[i + 2..]
                      else r;
            i + 1 <= |r'| && r'[..i + 1] + CompactPass(r'[i + 1..]) == r[..i] + CompactPass(r[i..])
  {
    if TextsMatch(r[i], r[i + 1]) {
      SpliceMerge(r, i);
    } else {
      var s := r[i..];
      assert s[0] == r[i] && s[1] == r[i + 1] && s[1..] == r[i + 1..];
      assert CompactPass(s) == [r[i]] + CompactPass(r[i + 1..]);
      assert r[..i + 1] == r[..i] + [r[i]];
    }
  }

  /** The merging half of the step. */
  lemma SpliceMerge(r: seq<Run>, i: nat)
    requires i < |r| - 1 && TextsMatch(r[i], r[i + 1])
    ensures var r' := r[..i] + [MergeRuns(r[i], r[i + 1])] + r[i + 2..];
            i + 1 <= |r'| && r'[..i + 1] + CompactPass(r'[i + 1..]) == r[..i] + CompactPass(r[i..])
  {
    var m := MergeRuns(r[i], r[i + 1]);
    var s := r[i..];
    assert s[0] == r[i] && s[1] == r[i + 1] && s[2..] == r[i + 2..];
    assert CompactPass(s) == [m] + CompactPass(r[i + 2..]);
    var r' := r[..i] + [m] + r[i + 2..];
    assert r'[..i + 1] == r[..i] + [m];
    assert r'[i + 1..] == r[i + 2..];
  }

  /** `compactAndNormalize(result)` on the run list, with the in-place
      splice modelled on a sequence. */
  method CompactAndNormalize(result: seq<Run>) returns (r: seq<Run>)
    ensures r == Normalize(result)
    ensures Texts(r) == Texts(result)
  {
    r := result;
    var i := 0;
    while i < |r| - 1
      invariant 0 <= i <= |r|
      invariant r[..i] + CompactPass(r[i..]) == CompactPass(result)
      decreases |r| - i
    {
      SpliceStep(r, i);
      if TextsMatch(r[i], r[i + 1]) {
        r := r[..i] + [MergeRuns(r[i], r[i + 1])] + r[i + 2..];
      }
      i := i + 1;
    }
    assert CompactPass(r[i..]) == r[i..];
    assert r == r[..i] + r[i..];
    if |r| == 0 {
      r := r + [Text("", map[])];
    }
    NormalizeBounds(result);
  }

  /** Three mutually matching runs become two runs, not one. */
  lemma ThreeMatchingRunsBecomeTwo()
    ensures Normalize([Text("a", map[]), Text("b", map[]), Text("c", map[])])
            == [Text("ab", map[]), Text("c", map[])]
  {
    var rs := [Text("a", map[]), Text("b", map[]), Text("c", map[])];
    assert TextsMatch(rs[0], rs[1]);
    assert MergeRuns(rs[0], rs[1]) == Text("ab", map[]);
    assert rs[2..] == [Text("c", map[])];
    assert CompactPass(rs) == [Text("ab", map[])] + CompactPass(rs[2..]);
  }

  /** Hence the compaction is not idempotent: a second pass merges again. */
  lemma NormalizeNotIdempotent()
    ensures var rs := [Text("a", map[]), Text("b", map[]), Text("c", map[])];
            Normalize(Normalize(rs)) != Normalize(rs)
  {
    ThreeMatchingRunsBecomeTwo();
    var once := [Text("ab", map[]), Text("c", map[])];
    assert TextsMatch(once[0], once[1]);
    assert MergeRuns(once[0], once[1]) == Text("abc", map[]);
    assert once[2..] == [];
    assert CompactPass(once) == [Text("abc", map[])] + CompactPass([]);
    assert Normalize(once) == [Text("abc", map[])];
  }

  /** The runs `convertAllToParagraph` inserts into its fresh paragraph: the
      editor flattened and compacted. Never empty, and the whole document's
      text in order. */
  function ParagraphRuns(children: seq<Node>): (r: seq<Run>)
    ensures |r| >= 1
    ensures Texts(r) == StringAll(children)
  {
    var flat := FlattenEditor(children);
    CompactPassBounds(flat);
    Normalize(flat)
  }

  /** The pass as written, with `textsMatch` raising on any run that has
      a mark. Two runs without marks always match, so the pass compares the
      pairs (0, 1), (2, 3), ... until one of them raises. */
  function CompactPassAsWritten(rs: seq<Run>): Eval<seq<Run>>
    decreases |rs|
  {
    if |rs| < 2 then Value(rs)
    else match TextsMatchAsWritten(rs[0], rs[1])
      case Throws => Throws
      // a `textsMatch` that returns at all returns true, so the pair merges
      case Value(_) =>
        match CompactPassAsWritten(rs[2..])
        case Throws => Throws
        case Value(t) => Value([MergeRuns(rs[0], rs[1])] + t)
  }

  /** A run the pass as written compares: every run except the last one of
      a list of odd length. */
  predicate MarkedAndCompared(rs: seq<Run>, i: int) {
    0 <= i < 2 * (|rs| / 2) && rs[i].marks != map[]
  }

  /** As written, the pass raises exactly when some compared run has a
      mark; when it does not raise it computes the intended pass. */
  lemma {:induction false} CompactPassAsWrittenRaises(rs: seq<Run>)
    ensures CompactPassAsWritten(rs).Throws? <==> exists i :: MarkedAndCompared(rs, i)
    ensures CompactPassAsWritten(rs).Value? ==> CompactPassAsWritten(rs).v == CompactPass(rs)
    decreases |rs|
  {
    if |rs| >= 2 {
      if rs[0].marks != map[] || rs[1].marks != map[] {
        assert MarkedAndCompared(rs, 0) || MarkedAndCompared(rs, 1);
      } else {
        var rest := rs[2..];
        assert TextsMatch(rs[0], rs[1]);
        CompactPassAsWrittenRaises(rest);
        assert 2 * (|rs| / 2) == 2 * (|rest| / 2) + 2;
        if exists j :: MarkedAndCompared(rest, j) {
          var j :| MarkedAndCompared(rest, j);
          assert rs[j + 2] == rest[j];
          assert MarkedAndCompared(rs, j + 2);
        }
        if exists i :: MarkedAndCompared(rs, i) {
          var i :| MarkedAndCompared(rs, i);
          assert i >= 2;
          assert rest[i - 2] == rs[i];
          assert MarkedAndCompared(rest, i - 2);
        }
      }
    }
  }

  /** On runs without marks the pass as written is the intended pass. */
  lemma {:induction false} PlainRunsCompactAsIntended(rs: seq<Run>)
    requires forall i :: 0 <= i < |rs| ==> rs[i].marks == map[]
    ensures CompactPassAsWritten(rs) == Value(CompactPass(rs))
  {
    CompactPassAsWrittenRaises(rs);
  }

  /** The runs `convertAllToParagraph` inserts, as written: it raises in
      `compactAndNormalize` before removing anything when a compared run
      of the flattened editor has a mark, and otherwise inserts the
      intended runs. */
  function ParagraphRunsAsWritten(children: seq<Node>): (r: Eval<seq<Run>>)
    ensures r.Throws? <==> exists i :: MarkedAndCompared(FlattenEditor(children), i)
    ensures r.Value? ==> r.v == ParagraphRuns(children)
  {
    var flat := FlattenEditor(children);
    CompactPassAsWrittenRaises(flat);
    match CompactPassAsWritten(flat)
    case Throws => Throws
    case Value(p) => Value(if |p| == 0 then [Text("", map[])] else p)
  }

  /** A paragraph of two bold runs: the intended conversion inserts one
      merged bold run, while the code as written raises. */
  lemma ConversionRaisesOnFormattedText()
    ensures var bold := map["bold" := VBool(true)];
            var doc := [Element("paragraph", None, [Text("a", bold), Text("b", bold)])];
            && ParagraphRuns(doc) == [Text("ab", bold)]
            && ParagraphRunsAsWritten(doc) == Throws
  {
    var bold := map["bold" := VBool(true)];
    var a := Text("a", bold);
    var b := Text("b", bold);
    var doc := [Element("paragraph", None, [a, b])];
    var flat := FlattenEditor(doc);
    assert flat == [a, b] by {
      assert LeavesAll([a, b]) == [a] + LeavesAll([b]);
      assert LeavesAll([b]) == [b] + LeavesAll([]);
      assert LeavesAll(doc) == Leaves(doc[0]) + LeavesAll([]);
    }
    assert "bold" in a.marks;
    assert TextsMatch(a, b);
    assert flat[2..] == [];
    assert CompactPass(flat) == [MergeRuns(a, b)] + CompactPass([]);
    assert MergeRuns(a, b) == Text("ab", bold) by { assert "a" + "b" == "ab"; }
    assert Normalize(flat) == [Text("ab", bold)];
    assert MarkedAndCompared(flat, 0);
  }
}

=== FILE: join.dfy ===
/** The keyboard handlers that merge the current text block into its
    neighbour when Backspace is pressed at the start of the block or Delete
    at its end. Each handler is a function from the editor state and what
    its collaborators answer to the sequence of calls it makes; deferred
    calls carry the stage at which they run, so the timer nesting is kept
    as ordering only. */
module Join {
  import opened Wrappers
  import opened Tree
  import opened Cursor
  import opened Render

  /** A stored block as the handler reads it: `'@type'` and `value`, each
      possibly missing. A missing neighbour is read as the empty object. */
  datatype StoredBlock = StoredBlock(kind: Option<string>, value: Option<seq<Node>>)

  const EmptyObject: StoredBlock := StoredBlock(None, None)

  /** What the neighbour lookup returns: the block and its id. */
  datatype Neighbour = Neighbour(block: StoredBlock, id: string)

  /** The value stored by `onChangeBlock`. */
  datatype Payload = Payload(kind: string, value: seq<Node>, plaintext: string)

  /** The calls a handler makes, reads included. */
  datatype Call =
    | ReadBlockProps
    | LookupNeighbour
    | StopPropagation
    | PreventDefault
    | Merge(other: StoredBlock)
    | SaveSelection(id: string, cursor: Option<Range>)
    | ChangeBlock(id: string, payload: Payload)
    | DeleteBlock(id: string, focusPrevious: bool)
    | SelectBlock(id: string)

  /** When a call runs: during the handler, in the first deferred step, or
      in the step deferred from that one. */
  datatype Stage = Sync | Deferred | NestedDeferred

  function Rank(s: Stage): nat {
    match s
    case Sync => 0
    case Deferred => 1
    case NestedDeferred => 2
  }

  datatype Event = Event(stage: Stage, call: Call)

  /** `undefined` (the event is left to others), `true`, or an exception. */
  datatype Status = NotHandled | Handled | Threw

  datatype Outcome = Outcome(status: Status, trace: seq<Event>)

  /** Reads have no effect on the editor, the event or the block store. */
  predicate IsRead(c: Call) {
    c == ReadBlockProps || c == LookupNeighbour
  }

  /** The effects of a trace: everything except the reads. */
  function Effects(t: seq<Event>): (r: seq<Event>)
    ensures |r| <= |t|
    decreases |t|
  {
    if t == [] then []
    else (if IsRead(t[0].call) then [] else [t[0]]) + Effects(t[1..])
  }

  lemma {:induction false} EffectsAppend(a: seq<Event>, b: seq<Event>)
    ensures Effects(a + b) == Effects(a) + Effects(b)
    decreases |a|
  {
    if a == [] {
      assert a + b == b;
    } else {
      assert (a + b)[0] == a[0];
      assert (a + b)[1..] == a[1..] + b;
      EffectsAppend(a[1..], b);
    }
  }

  /** Stages never go back along a trace. */
  predicate StagesOrdered(t: seq<Event>) {
    forall i, j :: 0 <= i < j < |t| ==> Rank(t[i].stage) <= Rank(t[j].stage)
  }

  /** `getBlockEndAsRange(block)`: a collapsed range at the end of the last
      text run of the block's value, found by descending from its last
      top-level node. A missing or empty value, or a descent that ends on
      an element, raises. */
  function GetBlockEndAsRange(block: StoredBlock): (r: Eval<Range>)
    ensures r.Value? <==> block.value.Some? && LastEntry(block.value.value).At?
                          && LastEntry(block.value.value).node.Text?
    ensures r.Value? ==> Collapsed(r.v)
    ensures r.Value? ==> var last := LastEntry(block.value.value);
                         r.v.anchor == Point(last.path, |last.node.text|)
                         && NodeAt(block.value.value, last.path) == Some(last.node)
  {
    match block.value
    case None => Throws
    case Some(v) =>
      if |v| == 0 then Throws
      else
        var d := LastDescent(v[|v| - 1]);
        var path := [|v| - 1] + d.1;
        if d.0.Text? then
          var p := Point(path, |d.0.text|);
          Value(Range(p, p))
        else Throws
  }

  /** The cursor saved for a backward join is exactly where the
      end-of-block test of that block's editor would report true. */
  lemma BlockEndIsCursorAtEnd(block: StoredBlock)
    requires GetBlockEndAsRange(block).Value?
    ensures var r := GetBlockEndAsRange(block).v;
            IsCursorAtBlockEnd(Editor(block.value.value, Some(r))) == Value(true)
  {
    var r := GetBlockEndAsRange(block).v;
    AtBlockEndIff(Editor(block.value.value, Some(r)));
  }

  /** `getBlockStartAsRange(block, selection)`: the selection itself. */
  function GetBlockStartAsRange(block: StoredBlock, selection: Option<Range>): (r: Eval<Option<Range>>)
    ensures r.Value?
  {
    Value(selection)
  }

  /** The deferred tail shared by every successful join: save the cursor
      now; replace the neighbour's value with the merged tree later; delete
      the current block and select the neighbour later still. */
  function Commit(otherId: string, cursor: Option<Range>, combined: seq<Node>, blockId: string): seq<Event> {
    [ Event(Sync, SaveSelection(otherId, cursor)),
      Event(Deferred, ChangeBlock(otherId, Payload("slate", combined, SerializeNodesToText(combined)))),
      Event(NestedDeferred, DeleteBlock(blockId, false)),
      Event(NestedDeferred, SelectBlock(otherId)) ]
  }

  function NeighbourBlock(n: Option<Neighbour>): StoredBlock {
    if n.Some? then n.value.block else EmptyObject
  }

  const Reads: seq<Event> := [Event(Sync, ReadBlockProps), Event(Sync, LookupNeighbour)]

  /** Suppressing the event and merging, once the gates have passed. */
  function Takeover(other: StoredBlock): seq<Event> {
    [Event(Sync, StopPropagation), Event(Sync, PreventDefault), Event(Sync, Merge(other))]
  }

  /** `joinWithPreviousBlock`. `merge` stands for the backward merge of
      the neighbour into the editor, `blockId` for the current block. */
  function JoinWithPrevious(ed: Editor, blockId: string, previous: Option<Neighbour>,
                            merge: (Editor, StoredBlock) -> Editor): Outcome
  {
    if !IsCursorAtBlockStart(ed) then Outcome(NotHandled, [])
    else
      var other := NeighbourBlock(previous);
      if other.kind != Some("slate") then Outcome(NotHandled, Reads)
      else
        var merged := merge(ed, other);
        var t := Reads + Takeover(other);
        match GetBlockEndAsRange(other)
        case Throws => Outcome(Threw, t)
        case Value(cursor) =>
          Outcome(Handled, t + Commit(previous.value.id, Some(cursor), merged.children, blockId))
  }

  /** `joinWithNextBlock`: gated on the end-of-block test, which can itself
      raise; the cursor saved is the merged editor's selection. */
  function JoinWithNext(ed: Editor, blockId: string, next: Option<Neighbour>,
                        merge: (Editor, StoredBlock) -> Editor): Outcome
  {
    match IsCursorAtBlockEnd(ed)
    case Throws => Outcome(Threw, [])
    case Value(atEnd) =>
      if !atEnd then Outcome(NotHandled, [])
      else
        var other := NeighbourBlock(next);
        if other.kind != Some("slate") then Outcome(NotHandled, Reads)
        else
          var merged := merge(ed, other);
          var cursor := GetBlockStartAsRange(other, merged.selection).v;
          Outcome(Handled, Reads + Takeover(other) + Commit(next.value.id, cursor, merged.children, blockId))
  }

  /** `joinWithNeighborBlock(lookup, cursorOf, isValid, merge)`: the generic
      form, which reads the block properties and looks the neighbour up
      before its validity test. */
  function JoinWithNeighbour(ed: Editor, blockId: string, neighbour: Option<Neighbour>,
                             cursorOf: (StoredBlock, Option<Range>) -> Eval<Option<Range>>,
                             isValid: Editor -> Eval<bool>,
                             merge: (Editor, StoredBlock) -> Editor): Outcome
  {
    match isValid(ed)
    case Throws => Outcome(Threw, Reads)
    case Value(ok) =>
      var other := NeighbourBlock(neighbour);
      if !ok || other.kind != Some("slate") then Outcome(NotHandled, Reads)
      else
        var merged := merge(ed, other);
        var t := Reads + Takeover(other);
        match cursorOf(other, merged.selection)
        case Throws => Outcome(Threw, t)
        case Value(cursor) => Outcome(Handled, t + Commit(neighbour.value.id, cursor, merged.children, blockId))
  }

  /** The end-of-block cursor in the shape the generic form expects. */
  function BlockEndCursor(block: StoredBlock, selection: Option<Range>): Eval<Option<Range>> {
    match GetBlockEndAsRange(block)
    case Throws => Throws
    case Value(r) => Value(Some(r))
  }

  /** A failed gate: nothing is called, the event is not suppressed. */
  lemma GatesHaveNoEffect(ed: Editor, blockId: string, n: Option<Neighbour>, merge: (Editor, StoredBlock) -> Editor)
    ensures !IsCursorAtBlockStart(ed) ==> JoinWithPrevious(ed, blockId, n, merge) == Outcome(NotHandled, [])
    ensures IsCursorAtBlockEnd(ed) == Value(false) ==> JoinWithNext(ed, blockId, n, merge) == Outcome(NotHandled, [])
    ensures NeighbourBlock(n).kind != Some("slate") ==>
              JoinWithPrevious(ed, blockId, n, merge).status == NotHandled
              && Effects(JoinWithPrevious(ed, blockId, n, merge).trace) == []
    ensures NeighbourBlock(n).kind != Some("slate") && IsCursorAtBlockEnd(ed).Value? ==>
              JoinWithNext(ed, blockId, n, merge).status == NotHandled
              && Effects(JoinWithNext(ed, blockId, n, merge).trace) == []
    ensures NeighbourBlock(None).kind != Some("slate")
  {
    assert Effects(Reads) == [] by {
      assert Reads[1..] == [Event(Sync, LookupNeighbour)];
      assert Effects(Reads[1..]) == [] + Effects([]);
    }
  }

  /** A successful backward join: the event is suppressed, the cursor
      saved on the neighbour is the end of its old value, its new value is
      the merged tree with its plain text, and the current block is deleted
      and the neighbour selected only after the change, in that order. */
  lemma BackwardJoinCommits(ed: Editor, blockId: string, n: Option<Neighbour>, merge: (Editor, StoredBlock) -> Editor)
    ensures var o := JoinWithPrevious(ed, blockId, n, merge);
            o.status == Handled <==>
              IsCursorAtBlockStart(ed) && NeighbourBlock(n).kind == Some("slate")
              && GetBlockEndAsRange(NeighbourBlock(n)).Value?
    ensures var o := JoinWithPrevious(ed, blockId, n, merge);
            o.status == Handled ==>
              var id := n.value.id;
              var combined := merge(ed, n.value.block).children;
              && |o.trace| == 9
              && o.trace[2] == Event(Sync, StopPropagation) && o.trace[3] == Event(Sync, PreventDefault)
              && o.trace[5] == Event(Sync, SaveSelection(id, Some(GetBlockEndAsRange(n.value.block).v)))
              && o.trace[6] == Event(Deferred, ChangeBlock(id, Payload("slate", combined, SerializeNodesToText(combined))))
              && o.trace[7] == Event(NestedDeferred, DeleteBlock(blockId, false))
              && o.trace[8] == Event(NestedDeferred, SelectBlock(id))
              && StagesOrdered(o.trace)
    ensures var o := JoinWithPrevious(ed, blockId, n, merge);
            o.status == Threw ==> |o.trace| == 5 && o.trace[4].call.Merge?
  {
  }

  /** A successful forward join saves the merged editor's selection
      unchanged and commits in the same order. */
  lemma ForwardJoinCommits(ed: Editor, blockId: string, n: Option<Neighbour>, merge: (Editor, StoredBlock) -> Editor)
    ensures var o := JoinWithNext(ed, blockId, n, merge);
            o.status == Handled <==>
              IsCursorAtBlockEnd(ed) == Value(true) && NeighbourBlock(n).kind == Some("slate")
    ensures var o := JoinWithNext(ed, blockId, n, merge);
            o.status == Threw <==> IsCursorAtBlockEnd(ed).Throws?
    ensures var o := JoinWithNext(ed, blockId, n, merge);
            o.status == Handled ==>
              var id := n.value.id;
              var merged := merge(ed, n.value.block);
              && |o.trace| == 9
              && o.trace[5] == Event(Sync, SaveSelection(id, merged.selection))
              && o.trace[6] == Event(Deferred, ChangeBlock(id, Payload("slate", merged.children, SerializeNodesToText(merged.children))))
              && o.trace[7..] == [Event(NestedDeferred, DeleteBlock(blockId, false)), Event(NestedDeferred, SelectBlock(id))]
              && StagesOrdered(o.trace)
  {
  }

  /** The generic form tests validity and kind before every effect: when
      either fails, only the reads have happened. */
  lemma NeighbourGatesPrecedeEffects(ed: Editor, blockId: string, n: Option<Neighbour>,
                                     cursorOf: (StoredBlock, Option<Range>) -> Eval<Option<Range>>,
                                     isValid: Editor -> Eval<bool>,
                                     merge: (Editor, StoredBlock) -> Editor)
    ensures var o := JoinWithNeighbour(ed, blockId, n, cursorOf, isValid, merge);
            o.status != Handled && !(o.status == Threw && |o.trace| > 2) ==> o.trace == Reads
    ensures var o := JoinWithNeighbour(ed, blockId, n, cursorOf, isValid, merge);
            (isValid(ed) != Value(true) || NeighbourBlock(n).kind != Some("slate")) ==>
              o.trace == Reads && o.status != Handled
  {
  }

  /** The generic form instantiated with the start test, the end-of-block
      cursor and the backward merge behaves as the backward handler, except
      that it reads the block properties and the neighbour before its
      gate: the status and the effects agree. */
  lemma NeighbourMatchesPrevious(ed: Editor, blockId: string, n: Option<Neighbour>, merge: (Editor, StoredBlock) -> Editor)
    ensures var g := JoinWithNeighbour(ed, blockId, n, BlockEndCursor, (e: Editor) => Value(IsCursorAtBlockStart(e)), merge);
            var p := JoinWithPrevious(ed, blockId, n, merge);
            g.status == p.status && Effects(g.trace) == Effects(p.trace)
  {
    var g := JoinWithNeighbour(ed, blockId, n, BlockEndCursor, (e: Editor) => Value(IsCursorAtBlockStart(e)), merge);
    var p := JoinWithPrevious(ed, blockId, n, merge);
    assert Effects(Reads) == [] by {
      assert Reads[1..] == [Event(Sync, LookupNeighbour)];
      assert Effects(Reads[1..]) == [] + Effects([]);
    }
    if g.trace == Reads && !IsCursorAtBlockStart(ed) {
      assert p.trace == [];
    }
    assert g.trace == p.trace || (g.trace == Reads && p.trace == []);
  }

  /** Likewise with the end test, the selection cursor and the forward
      merge; an end test that raises throws in both. */
  lemma NeighbourMatchesNext(ed: Editor, blockId: string, n: Option<Neighbour>, merge: (Editor, StoredBlock) -> Editor)
    ensures var g := JoinWithNeighbour(ed, blockId, n, GetBlockStartAsRange, (e: Editor) => IsCursorAtBlockEnd(e), merge);
            var q := JoinWithNext(ed, blockId, n, merge);
            g.status == q.status && Effects(g.trace) == Effects(q.trace)
  {
    var g := JoinWithNeighbour(ed, blockId, n, GetBlockStartAsRange, (e: Editor) => IsCursorAtBlockEnd(e), merge);
    var q := JoinWithNext(ed, blockId, n, merge);
    assert Effects(Reads) == [] by {
      assert Reads[1..] == [Event(Sync, LookupNeighbour)];
      assert Effects(Reads[1..]) == [] + Effects([]);
    }
    assert g.trace == q.trace || (g.trace == Reads && q.trace == []);
  }

  /** Joining a block into a neighbour holding one paragraph "Hello": the
      saved cursor is offset 5 of that paragraph's only run. */
  lemma HelloCursor()
    ensures GetBlockEndAsRange(StoredBlock(Some("slate"), Some([Element("p", None, [Text("Hello", map[])])])))
            == Value(Range(Point([0, 0], 5), Point([0, 0], 5)))
  {
    var run := Text("Hello", map[]);
    assert LastDescent(run) == (run, []);
    assert LastDescent(Element("p", None, [run])) == (run, [0] + []);
    assert [0] + ([0] + []) == [0, 0];
  }
}

=== FILE: link.dfy ===
/** The link element's target: a `mailto:` address when the link is an
    email, otherwise the first truthy of the external link, the internal
    link's `@id` and the element's `url`. */
module Link {
  import opened Strings

  /** A JavaScript value as the link data holds it. */
  datatype Js =
    | Undefined
    | Null
    | Bool(b: bool)
    | Num(n: nat)
    | Str(s: string)
    | Obj(props: map<string, Js>)
    | Arr(items: seq<Js>)

  predicate Nullish(v: Js) {
    v == Undefined || v == Null
  }

  predicate Truthy(v: Js) {
    match v
    case Undefined => false
    case Null => false
    case Bool(b) => b
    case Num(n) => n != 0
    case Str(s) => s != ""
    case Obj(_) => true
    case Arr(_) => true
  }

  /** `v[k]` for a named key on a value that is not null or undefined. Only
      own keys of objects are modelled; none of the keys read here is a
      built-in property of a primitive or an array. */
  function Prop(v: Js, k: string): Js
    requires !Nullish(v)
  {
    match v
    case Obj(props) => if k in props then props[k] else Undefined
    case _ => Undefined
  }

  /** `v?.[k]`: undefined instead of an error on null or undefined. */
  function OptProp(v: Js, k: string): (r: Js)
    ensures Nullish(v) ==> r == Undefined
  {
    if Nullish(v) then Undefined else Prop(v, k)
  }

  /** `v?.[0]`: the first item of an array or string, the `"0"` key of an
      object. */
  function OptFirst(v: Js): (r: Js)
    ensures Nullish(v) ==> r == Undefined
  {
    match v
    case Arr(items) => if items == [] then Undefined else items[0]
    case Str(s) => if s == "" then Undefined else Str([s[0]])
    case Obj(props) => if "0" in props then props["0"] else Undefined
    case _ => Undefined
  }

  /** `a || b`. */
  function Or(a: Js, b: Js): (r: Js)
    ensures r == a || r == b
    ensures Truthy(r) <==> Truthy(a) || Truthy(b)
  {
    if Truthy(a) then a else b
  }

  /** String conversion inside a template literal. */
  function ToStr(v: Js): string
    decreases v
  {
    match v
    case Undefined => "undefined"
    case Null => "null"
    case Bool(b) => if b then "true" else "false"
    case Num(n) => Digits(n)
    case Str(s) => s
    case Obj(_) => "[object Object]"
    case Arr(items) => ItemsToStr(items)
  }

  /** `Array.prototype.toString`: items joined by commas, null and
      undefined as empty. */
  function ItemsToStr(items: seq<Js>): string
    decreases items
  {
    if items == [] then ""
    else
      (if Nullish(items[0]) then "" else ToStr(items[0]))
      + (if |items| == 1 then "" else "," + ItemsToStr(items[1..]))
  }

  /** The link object: `(element.data || {}).link`. */
  function LinkOf(data: Js): Js {
    if Truthy(data) then Prop(data, "link") else Undefined
  }

  /** `link?.internal?.internal_link?.[0]?.['@id']`. */
  function InternalLink(link: Js): Js {
    OptProp(OptFirst(OptProp(OptProp(link, "internal"), "internal_link")), "@id")
  }

  /** `link?.external?.external_link`. */
  function ExternalLink(link: Js): Js {
    OptProp(OptProp(link, "external"), "external_link")
  }

  /** `link?.email`. */
  function Email(link: Js): Js {
    OptProp(link, "email")
  }

  /** The `mailto:` target of a truthy email object. */
  function MailTo(email: Js): string
    requires Truthy(email)
  {
    var subject := Prop(email, "email_subject");
    "mailto:" + ToStr(Prop(email, "email_address"))
    + (if Truthy(subject) then "?subject=" + ToStr(subject) else "")
  }

  /** `href` of `LinkElement` for an element with this `url` and `data`. */
  function Href(url: Js, data: Js): Js {
    var link := LinkOf(data);
    var email := Email(link);
    if Truthy(email) then Str(MailTo(email))
    else Or(Or(ExternalLink(link), InternalLink(link)), url)
  }

  /** An email wins over every other field: the target is `mailto:` with
      the address, followed by `?subject=` and the subject only when the
      subject is truthy. */
  lemma EmailTakesPrecedence(url: Js, data: Js, url': Js)
    requires Truthy(Email(LinkOf(data)))
    ensures var email := Email(LinkOf(data));
            var address := ToStr(Prop(email, "email_address"));
            var subject := Prop(email, "email_subject");
            && Href(url, data) == Href(url', data)
            && (Truthy(subject) ==> Href(url, data) == Str("mailto:" + address + "?subject=" + ToStr(subject)))
            && (!Truthy(subject) ==> Href(url, data) == Str("mailto:" + address))
  {
  }

  /** Without an email: the external link when truthy, else the internal
      link when truthy, else the element's `url` whatever it is. */
  lemma FallbackOrder(url: Js, data: Js)
    requires !Truthy(Email(LinkOf(data)))
    ensures var link := LinkOf(data);
            && (Truthy(ExternalLink(link)) ==> Href(url, data) == ExternalLink(link))
            && (!Truthy(ExternalLink(link)) && Truthy(InternalLink(link)) ==> Href(url, data) == InternalLink(link))
            && (!Truthy(ExternalLink(link)) && !Truthy(InternalLink(link)) ==> Href(url, data) == url)
  {
  }

  /** Without link data the target is the element's `url`. */
  lemma NoDataMeansUrl(url: Js, data: Js)
    requires !Truthy(data)
    ensures Href(url, data) == url
  {
  }

  /** The internal link is the `@id` of the first item of a well-formed
      `internal.internal_link` list, and undefined (never an error) when any
      step of the chain is missing. */
  lemma InternalLinkChain(link: Js, internal: Js, items: seq<Js>, id: Js)
    ensures InternalLink(Undefined) == Undefined && InternalLink(Null) == Undefined
    ensures InternalLink(Obj(map[])) == Undefined
    ensures InternalLink(Obj(map["internal" := Obj(map[])])) == Undefined
    ensures InternalLink(Obj(map["internal" := Obj(map["internal_link" := Arr([])])])) == Undefined
    ensures InternalLink(Obj(map["internal" := Obj(map["internal_link" := Arr([Obj(map["@id" := id])] + items)])])) == id
  {
    var inner := Obj(map["internal_link" := Arr([Obj(map["@id" := id])] + items)]);
    assert OptProp(Obj(map["internal" := inner]), "internal") == inner;
    assert OptProp(inner, "internal_link") == Arr([Obj(map["@id" := id])] + items);
    assert OptFirst(Arr([Obj(map["@id" := id])] + items)) == Obj(map["@id" := id]);
  }

  /** An email with a subject. */
  lemma MailToWithSubject()
    ensures Href(Undefined, Obj(map["link" := Obj(map["email" := Obj(map["email_address" := Str("a@b.c"), "email_subject" := Str("Hi")])])]))
            == Str("mailto:a@b.c?subject=Hi")
  {
    var e := Obj(map["email_address" := Str("a@b.c"), "email_subject" := Str("Hi")]);
    var l := Obj(map["email" := e]);
    assert LinkOf(Obj(map["link" := l])) == l;
    assert Email(l) == e;
    MailToOf(e, "a@b.c", "Hi");
    assert "mailto:" + "a@b.c" + ("?subject=" + "Hi") == "mailto:a@b.c?subject=Hi";
  }

  /** The `mailto:` target of an email object with a string address and a
      non-empty string subject. */
  lemma MailToOf(e: Js, address: string, subject: string)
    requires e == Obj(map["email_address" := Str(address), "email_subject" := Str(subject)])
    requires subject != ""
    ensures MailTo(e) == "mailto:" + address + ("?subject=" + subject)
  {
    assert Prop(e, "email_address") == Str(address);
    assert Prop(e, "email_subject") == Str(subject);
  }

  /** An email with an empty subject gets no query. */
  lemma MailToEmptySubject()
    ensures Href(Str("/x"), Obj(map["link" := Obj(map["email" := Obj(map["email_address" := Str("a@b.c"), "email_subject" := Str("")])])]))
            == Str("mailto:a@b.c")
  {
    var e := Obj(map["email_address" := Str("a@b.c"), "email_subject" := Str("")]);
    var l := Obj(map["email" := e]);
    assert LinkOf(Obj(map["link" := l])) == l;
    assert Email(l) == e;
    assert ToStr(Prop(e, "email_address")) == "a@b.c";
    assert !Truthy(Prop(e, "email_subject"));
    assert MailTo(e) == "mailto:" + "a@b.c" + "";
  }
}

=== FILE: lists.dfy ===
/** The legacy list toggle of the tree utilities: `toggleList` with its
    branch table, and `unwrapList`, as the sequence of editor transforms it
    requests. The transforms themselves belong to the editor library and
    are tokens here.

    Every range these helpers build comes from `getMaxRange`, which spans
    top-level node [0] only. `convertAllToParagraph` collects the runs of
    the whole editor but removes only node [0] before inserting them, so
    a document with several top-level nodes keeps the others and gets
    their text a second time. */
module Lists {

  /** One editor transform requested by the list toggle. */
  datatype ListStep =
    | SelectAll                                   // select the first top-level node
    | ConvertAllToParagraph                       // replace node [0] by one paragraph of all the editor's runs
    | UnwrapByType(types: seq<string>)            // unwrap the nodes of these types inside node [0]
    | WrapAll(kind: string)                       // wrap the selection in a new element
    | WrapEach(kind: string, matchType: string)   // wrap each selected node matched by `matchType`

  const BulletedList := "bulleted-list"
  const NumberedList := "numbered-list"
  const ListItem := "list-item"

  /** `unwrapList(editor, willWrapAgain, { unwrapFromList })`. The list type
      names are the function's own defaults, since the toggle passes only
      `unwrapFromList`. `expanded` is whether the selection is expanded. */
  function UnwrapList(willWrapAgain: bool, unwrapFromList: bool, expanded: bool): (r: seq<ListStep>)
    ensures (UnwrapByType([ListItem]) in r) <==> !(expanded && unwrapFromList)
    ensures (UnwrapByType([BulletedList, NumberedList]) in r) <==> !(expanded && unwrapFromList)
    ensures !(expanded && unwrapFromList) ==>
              |r| >= 2 && r[0] == UnwrapByType([ListItem]) && r[1] == UnwrapByType([BulletedList, NumberedList])
    ensures (ConvertAllToParagraph in r) <==> !willWrapAgain
    ensures !willWrapAgain ==> r[|r| - 1] == ConvertAllToParagraph
    ensures WrapAll(BulletedList) !in r && WrapAll(NumberedList) !in r
  {
    (if expanded && unwrapFromList then []
     else [UnwrapByType([ListItem]), UnwrapByType([BulletedList, NumberedList])])
    + (if !willWrapAgain then [ConvertAllToParagraph] else [])
  }

  /** The two branches of the table that flatten and return early: the
      requested list type is the only active one. */
  predicate TurnsListOff(typeList: string, isBulletedActive: bool, isNumberedActive: bool) {
    || (typeList == NumberedList && !isBulletedActive && isNumberedActive)
    || (typeList == BulletedList && isBulletedActive && !isNumberedActive)
  }

  /** The steps after the branch table: unwrap, wrap in a new list, and wrap
      every matched node in a list item. */
  function WrapSteps(typeList: string, typeLi: string, typeP: string,
                     isBulletedActive: bool, expanded: bool): seq<ListStep>
  {
    [SelectAll]
    + UnwrapList(!isBulletedActive, isBulletedActive, expanded)
    + [WrapAll(typeList), WrapEach(typeLi, typeP)]
  }

  /** `toggleList(editor, { typeList, typeLi, typeP, isBulletedActive,
      isNumberedActive })`; `expanded` is whether the selection is expanded
      when `unwrapList` reads it. */
  function ToggleList(typeList: string, typeLi: string, typeP: string,
                      isBulletedActive: bool, isNumberedActive: bool,
                      expanded: bool): seq<ListStep>
  {
    var b := typeList == BulletedList;
    var n := typeList == NumberedList;
    var wrap := WrapSteps(typeList, typeLi, typeP, isBulletedActive, expanded);
    if n && !isBulletedActive && !isNumberedActive then
      [SelectAll, ConvertAllToParagraph] + wrap
    else if n && !isBulletedActive && isNumberedActive then
      [SelectAll, ConvertAllToParagraph]
    else if n && isBulletedActive && !isNumberedActive then
      [SelectAll] + wrap
    else if b && !isBulletedActive && !isNumberedActive then
      [SelectAll, ConvertAllToParagraph] + wrap
    else if b && !isBulletedActive && isNumberedActive then
      [SelectAll] + wrap
    else if b && isBulletedActive && !isNumberedActive then
      [SelectAll, ConvertAllToParagraph]
    else
      [SelectAll] + wrap
  }

  /** The steps before the wrap phase, outside the early returns: the
      content is flattened first when no list type is active. */
  function PreWrap(typeList: string, isBulletedActive: bool, isNumberedActive: bool): seq<ListStep> {
    if (typeList == NumberedList || typeList == BulletedList) && !isBulletedActive && !isNumberedActive
    then [SelectAll, ConvertAllToParagraph] else [SelectAll]
  }

  /** The if-chain falls into two shapes: the early return, or the steps
      before the wrap phase followed by it. */
  lemma ToggleListSplit(typeList: string, typeLi: string, typeP: string,
                        isBulletedActive: bool, isNumberedActive: bool, expanded: bool)
    ensures var r := ToggleList(typeList, typeLi, typeP, isBulletedActive, isNumberedActive, expanded);
            && (TurnsListOff(typeList, isBulletedActive, isNumberedActive) ==> r == [SelectAll, ConvertAllToParagraph])
            && (!TurnsListOff(typeList, isBulletedActive, isNumberedActive) ==>
                  r == PreWrap(typeList, isBulletedActive, isNumberedActive)
                       + WrapSteps(typeList, typeLi, typeP, isBulletedActive, expanded))
  {
  }

  /** The branch table: it always selects first; it flattens and stops
      exactly when the requested type is the only active one; every other
      case ends with the wrap into `typeList` and the per-node item wrap. */
  lemma ToggleListShape(typeList: string, typeLi: string, typeP: string,
                        isBulletedActive: bool, isNumberedActive: bool, expanded: bool)
    ensures var r := ToggleList(typeList, typeLi, typeP, isBulletedActive, isNumberedActive, expanded);
            && r[0] == SelectAll
            && (TurnsListOff(typeList, isBulletedActive, isNumberedActive) <==> r == [SelectAll, ConvertAllToParagraph])
            && (!TurnsListOff(typeList, isBulletedActive, isNumberedActive) ==>
                  |r| >= 2 && r[|r| - 2..] == [WrapAll(typeList), WrapEach(typeLi, typeP)])
  {
    ToggleListSplit(typeList, typeLi, typeP, isBulletedActive, isNumberedActive, expanded);
    var r := ToggleList(typeList, typeLi, typeP, isBulletedActive, isNumberedActive, expanded);
    if !TurnsListOff(typeList, isBulletedActive, isNumberedActive) {
      var u := UnwrapList(!isBulletedActive, isBulletedActive, expanded);
      var tail := [WrapAll(typeList), WrapEach(typeLi, typeP)];
      var pre := PreWrap(typeList, isBulletedActive, isNumberedActive);
      assert r == (pre + [SelectAll] + u) + tail;
      assert r[|r| - 2..] == tail;
      assert r[0] == pre[0];
    }
  }

  /** `willWrapAgain = !isBulletedActive`: outside the early returns, the
      unwrap phase replaces node [0] by one paragraph of all the runs exactly when the
      bulleted list is active, and it unwraps the list items unless the
      selection is expanded and the bulleted list is active. */
  lemma ToggleListUnwrapPhase(typeList: string, typeLi: string, typeP: string,
                              isBulletedActive: bool, isNumberedActive: bool, expanded: bool)
    requires !TurnsListOff(typeList, isBulletedActive, isNumberedActive)
    ensures var r := ToggleList(typeList, typeLi, typeP, isBulletedActive, isNumberedActive, expanded);
            var u := UnwrapList(!isBulletedActive, isBulletedActive, expanded);
            |r| >= |u| + 2 && r[|r| - |u| - 2..|r| - 2] == u
            && (ConvertAllToParagraph in u <==> isBulletedActive)
            && (UnwrapByType([ListItem]) in u <==> !(expanded && isBulletedActive))
  {
    ToggleListInThree(typeList, typeLi, typeP, isBulletedActive, isNumberedActive, expanded);
    MiddleOfThree(PreWrap(typeList, isBulletedActive, isNumberedActive) + [SelectAll],
                  UnwrapList(!isBulletedActive, isBulletedActive, expanded),
                  [WrapAll(typeList), WrapEach(typeLi, typeP)]);
  }

  /** Outside the early returns: the steps before the unwrap phase, the
      unwrap phase, and the two wraps. */
  lemma ToggleListInThree(typeList: string, typeLi: string, typeP: string,
                          isBulletedActive: bool, isNumberedActive: bool, expanded: bool)
    requires !TurnsListOff(typeList, isBulletedActive, isNumberedActive)
    ensures ToggleList(typeList, typeLi, typeP, isBulletedActive, isNumberedActive, expanded)
            == PreWrap(typeList, isBulletedActive, isNumberedActive) + [SelectAll]
               + UnwrapList(!isBulletedActive, isBulletedActive, expanded)
               + [WrapAll(typeList), WrapEach(typeLi, typeP)]
  {
    ToggleListSplit(typeList, typeLi, typeP, isBulletedActive, isNumberedActive, expanded);
  }

  lemma MiddleOfThree(pre: seq<ListStep>, u: seq<ListStep>, tail: seq<ListStep>)
    requires |tail| == 2
    ensures var r := pre + u + tail;
            |r| >= |u| + 2 && r[|r| - |u| - 2..|r| - 2] == u
  {
    var r := pre + u + tail;
    assert r[|pre|..|pre| + |u|] == u;
  }

  /** Switching from numbered to bulleted keeps the list structure (only
      unwrapping), while switching from bulleted to numbered replaces node
      [0] by one paragraph of all the runs. */
  lemma SwitchListTypeAsymmetry(typeLi: string, typeP: string, expanded: bool)
    ensures ConvertAllToParagraph !in ToggleList(BulletedList, typeLi, typeP, false, true, expanded)
    ensures ConvertAllToParagraph in ToggleList(NumberedList, typeLi, typeP, true, false, expanded)
  {
    var r := ToggleList(NumberedList, typeLi, typeP, true, false, expanded);
    var u := UnwrapList(false, true, expanded);
    assert ConvertAllToParagraph in u;
    assert r == [SelectAll] + ([SelectAll] + u + [WrapAll(NumberedList), WrapEach(typeLi, typeP)]);
  }

  /** Which requests run `convertAllToParagraph`: every request while the
      bulleted list is active, every numbered request, and a bulleted
      request when the numbered list is not active. */
  lemma ToggleListConverts(typeList: string, typeLi: string, typeP: string,
                           isBulletedActive: bool, isNumberedActive: bool, expanded: bool)
    ensures ConvertAllToParagraph in ToggleList(typeList, typeLi, typeP, isBulletedActive, isNumberedActive, expanded)
            <==> isBulletedActive || typeList == NumberedList
                 || (typeList == BulletedList && !isNumberedActive)
  {
    ToggleListSplit(typeList, typeLi, typeP, isBulletedActive, isNumberedActive, expanded);
    if !TurnsListOff(typeList, isBulletedActive, isNumberedActive) {
      var pre := PreWrap(typeList, isBulletedActive, isNumberedActive);
      var u := UnwrapList(!isBulletedActive, isBulletedActive, expanded);
      var tail := [WrapAll(typeList), WrapEach(typeLi, typeP)];
      var r := pre + ([SelectAll] + u + tail);
      assert ConvertAllToParagraph in r <==> ConvertAllToParagraph in pre || ConvertAllToParagraph in u;
    }
  }

  /** Coarse shape of top-level node [0] as far as list structure goes. */
  datatype ListShape = Paragraphs | Blocks | InList(kind: string)

  /** Node [0]'s shape, and whether the selection lies in node [0]. The
      unwraps and the conversion act on node [0] through `getMaxRange`;
      the two wraps have no `at` and act on the selection instead. */
  datatype ListState = ListState(shape: ListShape, onFirst: bool)

  /** What each step does to the state.
      - Selecting puts the selection in node [0].
      - Converting leaves node [0] one paragraph. Its `removeNodes` takes
        the selection's node away, and the inserts that follow name their
        position, so the selection ends up in another top-level node, or
        is gone when there is no other.
      - Unwrapping a list type leaves independent blocks.
      - Wrapping makes node [0] a list only when the selection is in it. */
  function StepShape(s: ListState, step: ListStep): ListState {
    match step
    case SelectAll => ListState(s.shape, true)
    case ConvertAllToParagraph => ListState(Paragraphs, false)
    case UnwrapByType(types) =>
      if s.shape.InList? && (BulletedList in types || NumberedList in types)
      then ListState(Blocks, s.onFirst) else s
    case WrapAll(kind) => if s.onFirst then ListState(InList(kind), true) else s
    case WrapEach(_, _) => s
  }

  function RunShape(s: ListState, steps: seq<ListStep>): ListState
    decreases |steps|
  {
    if steps == [] then s else RunShape(StepShape(s, steps[0]), steps[1..])
  }

  lemma {:induction false} RunShapeAppend(s: ListState, a: seq<ListStep>, b: seq<ListStep>)
    ensures RunShape(s, a + b) == RunShape(RunShape(s, a), b)
    decreases |a|
  {
    if a == [] {
      assert a + b == b;
    } else {
      assert (a + b)[0] == a[0];
      assert (a + b)[1..] == a[1..] + b;
      RunShapeAppend(StepShape(s, a[0]), a[1..], b);
    }
  }

  /** Running a list whose last step is `last`. */
  lemma RunShapeLast(s: ListState, a: seq<ListStep>, last: ListStep)
    ensures RunShape(s, a + [last]) == StepShape(RunShape(s, a), last)
  {
    RunShapeAppend(s, a, [last]);
    assert [last][1..] == [];
  }

  /** The unwrap phase seen from a selection in node [0]: when the bulleted
      list is active it ends with the conversion, which leaves node [0] a
      paragraph and the selection elsewhere; otherwise the selection stays. */
  lemma UnwrapPhaseState(s: ListShape, isBulletedActive: bool, expanded: bool)
    ensures var after := RunShape(ListState(s, true), UnwrapList(!isBulletedActive, isBulletedActive, expanded));
            if isBulletedActive then after == ListState(Paragraphs, false) else after.onFirst
  {
    var u := UnwrapList(!isBulletedActive, isBulletedActive, expanded);
    if isBulletedActive {
      RunShapeLast(ListState(s, true), u[..|u| - 1], ConvertAllToParagraph);
      assert u[..|u| - 1] + [ConvertAllToParagraph] == u;
    } else {
      var u0 := UnwrapByType([ListItem]);
      var u1 := UnwrapByType([BulletedList, NumberedList]);
      assert u == [u0] + [u1] && [] + [u0] == [u0];
      RunShapeLast(ListState(s, true), [u0], u1);
      RunShapeLast(ListState(s, true), [], u0);
    }
  }

  /** The wrap phase: from a state, wrapping in a list and then wrapping
      list items. */
  lemma WrapPhaseState(st: ListState, typeList: string, typeLi: string, typeP: string)
    ensures RunShape(st, [WrapAll(typeList), WrapEach(typeLi, typeP)]).shape
            == if st.onFirst then InList(typeList) else st.shape
  {
    assert [WrapAll(typeList), WrapEach(typeLi, typeP)] == [WrapAll(typeList)] + [WrapEach(typeLi, typeP)];
    assert [] + [WrapAll(typeList)] == [WrapAll(typeList)];
    RunShapeLast(st, [WrapAll(typeList)], WrapEach(typeLi, typeP));
    RunShapeLast(st, [], WrapAll(typeList));
  }

  /** Whatever the starting state: requesting the only active list type
      leaves node [0] a plain paragraph; so does every request made while
      the bulleted list is active, because the unwrap phase converts after
      the last selection and the wrap then misses node [0]; every other
      request leaves node [0] a list of the requested type. */
  lemma ToggleListOutcome(s: ListState, typeList: string, typeLi: string, typeP: string,
                          isBulletedActive: bool, isNumberedActive: bool, expanded: bool)
    ensures RunShape(s, ToggleList(typeList, typeLi, typeP, isBulletedActive, isNumberedActive, expanded)).shape
            == if TurnsListOff(typeList, isBulletedActive, isNumberedActive) || isBulletedActive then Paragraphs
               else InList(typeList)
  {
    ToggleListSplit(typeList, typeLi, typeP, isBulletedActive, isNumberedActive, expanded);
    var r := ToggleList(typeList, typeLi, typeP, isBulletedActive, isNumberedActive, expanded);
    if TurnsListOff(typeList, isBulletedActive, isNumberedActive) {
      RunShapeLast(s, [SelectAll], ConvertAllToParagraph);
      assert [SelectAll] + [ConvertAllToParagraph] == r;
    } else {
      var pre := PreWrap(typeList, isBulletedActive, isNumberedActive);
      var u := UnwrapList(!isBulletedActive, isBulletedActive, expanded);
      var tail := [WrapAll(typeList), WrapEach(typeLi, typeP)];
      assert r == (pre + [SelectAll] + u) + tail;
      assert pre + [SelectAll] + u == (pre + [SelectAll]) + u;
      RunShapeAppend(s, pre + [SelectAll] + u, tail);
      RunShapeAppend(s, pre + [SelectAll], u);
      RunShapeLast(s, pre, SelectAll);
      var st1 := RunShape(s, pre + [SelectAll]);
      assert st1 == ListState(st1.shape, true);
      UnwrapPhaseState(st1.shape, isBulletedActive, expanded);
      WrapPhaseState(RunShape(st1, u), typeList, typeLi, typeP);
    }
  }

  /** Switching from the bulleted list to the numbered one, as written,
      loses the list: node [0] ends as a plain paragraph. */
  lemma BulletedToNumberedLosesList(s: ListState, typeLi: string, typeP: string, expanded: bool)
    ensures RunShape(s, ToggleList(NumberedList, typeLi, typeP, true, false, expanded)).shape == Paragraphs
    ensures !TurnsListOff(NumberedList, true, false)
  {
    ToggleListOutcome(s, NumberedList, typeLi, typeP, true, false, expanded);
  }

  /** The toggle as evidently intended: the same steps, with the selection
      put back in node [0] after the unwrap phase, so that the wraps act on
      the content the unwrap phase left there. */
  function ToggleListReselecting(typeList: string, typeLi: string, typeP: string,
                                 isBulletedActive: bool, isNumberedActive: bool,
                                 expanded: bool): seq<ListStep>
  {
    if TurnsListOff(typeList, isBulletedActive, isNumberedActive) then [SelectAll, ConvertAllToParagraph]
    else PreWrap(typeList, isBulletedActive, isNumberedActive) + [SelectAll]
         + UnwrapList(!isBulletedActive, isBulletedActive, expanded)
         + [SelectAll, WrapAll(typeList), WrapEach(typeLi, typeP)]
  }

  /** It differs from the toggle as written only by one selection step
      inserted before the two wraps. */
  lemma ReselectingDiffersByOneStep(typeList: string, typeLi: string, typeP: string,
                                    isBulletedActive: bool, isNumberedActive: bool, expanded: bool)
    ensures var r := ToggleList(typeList, typeLi, typeP, isBulletedActive, isNumberedActive, expanded);
            var r' := ToggleListReselecting(typeList, typeLi, typeP, isBulletedActive, isNumberedActive, expanded);
            if TurnsListOff(typeList, isBulletedActive, isNumberedActive) then r' == r
            else |r| >= 2 && r' == r[..|r| - 2] + [SelectAll] + r[|r| - 2..]
  {
    ToggleListSplit(typeList, typeLi, typeP, isBulletedActive, isNumberedActive, expanded);
    if !TurnsListOff(typeList, isBulletedActive, isNumberedActive) {
      var r := ToggleList(typeList, typeLi, typeP, isBulletedActive, isNumberedActive, expanded);
      var front := PreWrap(typeList, isBulletedActive, isNumberedActive) + [SelectAll]
                   + UnwrapList(!isBulletedActive, isBulletedActive, expanded);
      var tail := [WrapAll(typeList), WrapEach(typeLi, typeP)];
      assert r == front + tail;
      assert r[..|r| - 2] == front && r[|r| - 2..] == tail;
    }
  }

  /** With the selection restored, requesting the only active list type
      leaves node [0] a plain paragraph and every other request leaves it
      a list of the requested type, the bulleted-to-numbered switch
      included. */
  lemma ReselectingOutcome(s: ListState, typeList: string, typeLi: string, typeP: string,
                           isBulletedActive: bool, isNumberedActive: bool, expanded: bool)
    ensures RunShape(s, ToggleListReselecting(typeList, typeLi, typeP, isBulletedActive, isNumberedActive, expanded)).shape
            == if TurnsListOff(typeList, isBulletedActive, isNumberedActive) then Paragraphs
               else InList(typeList)
  {
    var r := ToggleListReselecting(typeList, typeLi, typeP, isBulletedActive, isNumberedActive, expanded);
    if TurnsListOff(typeList, isBulletedActive, isNumberedActive) {
      RunShapeLast(s, [SelectAll], ConvertAllToParagraph);
      assert [SelectAll] + [ConvertAllToParagraph] == r;
    } else {
      var front := PreWrap(typeList, isBulletedActive, isNumberedActive) + [SelectAll]
                   + UnwrapList(!isBulletedActive, isBulletedActive, expanded);
      var tail := [WrapAll(typeList), WrapEach(typeLi, typeP)];
      assert r == (front + [SelectAll]) + tail;
      RunShapeAppend(s, front + [SelectAll], tail);
      RunShapeLast(s, front, SelectAll);
      WrapPhaseState(RunShape(s, front + [SelectAll]), typeList, typeLi, typeP);
    }
  }

  /** `getSelectionNodesByType(editor, typeP)` receives a string, so its
      `types.includes(n.type)` is a substring test: an element is wrapped
      in a list item when its type occurs inside `typeP`. */
  predicate ItemWrapMatches(typeP: string, nodeType: string) {
    exists i, j :: 0 <= i <= j <= |typeP| && typeP[i..j] == nodeType
  }

  /** Worked examples of the matcher behind the `WrapEach` token. */
  lemma ItemWrapIsSubstringTest()
    ensures ItemWrapMatches("paragraph", "paragraph")
    ensures ItemWrapMatches("paragraph", "graph")
    ensures !ItemWrapMatches("paragraph", "list-item")
  {
    assert "paragraph"[0..9] == "paragraph";
    assert "paragraph"[4..9] == "graph";
  }
}

=== FILE: render.dfy ===
/** The view side of the editor: plain-text serialisation of a value, the
    class names and soft-break segmentation of a rendered text run, and the
    component and class chosen for an element. */
module Render {
  import opened Wrappers
  import opened Tree
  import opened Strings

  /** The string of every top-level node, in order. */
  function NodeStrings(nodes: seq<Node>): (r: seq<string>)
    ensures |r| == |nodes|
    ensures forall i :: 0 <= i < |nodes| ==> r[i] == NodeString(nodes[i])
  {
    seq(|nodes|, i requires 0 <= i < |nodes| => NodeString(nodes[i]))
  }

  /** `serializeNodesToText(nodes)`: each top-level node's text, joined
      with newlines. */
  function SerializeNodesToText(nodes: seq<Node>): string {
    Join(NodeStrings(nodes), '\n')
  }

  /** The serialisation is the leaf texts of each top-level node (the
      reference flattening) joined with newlines; no nodes give the empty
      string and one node gives its text with no separator. */
  lemma SerializeIsLeafTexts(nodes: seq<Node>)
    ensures SerializeNodesToText(nodes)
            == Join(seq(|nodes|, i requires 0 <= i < |nodes| => Texts(Leaves(nodes[i]))), '\n')
    ensures nodes == [] ==> SerializeNodesToText(nodes) == ""
    ensures |nodes| == 1 ==> SerializeNodesToText(nodes) == Texts(Leaves(nodes[0]))
  {
    forall i | 0 <= i < |nodes|
      ensures Texts(Leaves(nodes[i])) == NodeString(nodes[i])
    {
      LeavesSpellString(nodes[i]);
    }
    assert seq(|nodes|, i requires 0 <= i < |nodes| => Texts(Leaves(nodes[i]))) == NodeStrings(nodes);
  }

  /** Serialising two non-empty lists one after the other puts exactly one
      newline between their serialisations. */
  lemma {:induction false} SerializeAppend(a: seq<Node>, b: seq<Node>)
    requires a != [] && b != []
    ensures SerializeNodesToText(a + b)
            == SerializeNodesToText(a) + "\n" + SerializeNodesToText(b)
    decreases |a|
  {
    assert NodeStrings(a + b)[0] == NodeString(a[0]);
    if |a| == 1 {
      assert NodeStrings(a + b)[1..] == NodeStrings(b);
    } else {
      assert (a + b)[1..] == a[1..] + b;
      assert NodeStrings(a + b)[1..] == NodeStrings(a[1..] + b);
      assert NodeStrings(a)[1..] == NodeStrings(a[1..]);
      SerializeAppend(a[1..], b);
    }
  }

  /** When no node's text holds a newline, splitting the serialisation on
      newlines recovers every node's text, and it holds one newline fewer
      than there are nodes. */
  lemma SerializeSplitsBack(nodes: seq<Node>)
    requires nodes != []
    requires forall i :: 0 <= i < |nodes| ==> '\n' !in NodeString(nodes[i])
    ensures Split(SerializeNodesToText(nodes), '\n') == NodeStrings(nodes)
    ensures Count(SerializeNodesToText(nodes), '\n') + 1 == |nodes|
  {
    SplitJoin(NodeStrings(nodes), '\n');
    JoinCount(NodeStrings(nodes), '\n');
  }

  // ---- Leaf ----

  /** A primitive value interpolated into a template literal; an absent key
      reads as `undefined`. */
  function TemplateString(v: Option<Value>): string {
    match v
    case None => "undefined"
    case Some(VStr(s)) => s
    case Some(VBool(b)) => if b then "true" else "false"
    case Some(VNum(n)) => if n < 0 then "-" + Digits(-n) else Digits(n)
    case Some(VNull) => "null"
  }

  function Get(marks: map<string, Value>, k: string): Option<Value> {
    if k in marks then Some(marks[k]) else None
  }

  function TruthyKey(marks: map<string, Value>, k: string): bool {
    k in marks && Truthy(marks[k])
  }

  const StylePrefix: string := "style-"

  /** The class names contributed by the `style-` keys of a run: each key
      with its six-character prefix removed. */
  function StyleClasses(marks: map<string, Value>): set<string> {
    set k | k in marks && StartsWith(k, StylePrefix) :: k[6..]
  }

  /** The key of the highlight class: `highlight-` and the highlight type. */
  function HighlightKey(marks: map<string, Value>): string {
    "highlight-" + TemplateString(Get(marks, "highlightType"))
  }

  /** The object handed to the class-name joiner: the two highlight
      entries (the selection one written second, so it wins when the keys
      coincide), then `true` for every `style-` key. */
  function ClassObject(marks: map<string, Value>, mode: string): map<string, bool> {
    var base := map[HighlightKey(marks) := mode != "view" && TruthyKey(marks, "highlight")]
                   ["highlight-selection" := mode != "view" && TruthyKey(marks, "isSelection")];
    var styles := StyleClasses(marks);
    map k | k in base.Keys + styles :: k in styles || base[k]
  }

  /** The class names of a rendered run: the keys with a true value. */
  function LeafClasses(marks: map<string, Value>, mode: string): set<string> {
    var obj := ClassObject(marks, mode);
    set k | k in obj && obj[k]
  }

  /** Every `style-` key contributes its suffix, in every mode; besides
      those only the two highlight classes can appear, and only outside
      view mode. */
  lemma LeafClassesCharacterised(marks: map<string, Value>, mode: string)
    ensures forall k :: k in marks && StartsWith(k, StylePrefix) ==> k[6..] in LeafClasses(marks, mode)
    ensures StyleClasses(marks) <= LeafClasses(marks, mode)
    ensures LeafClasses(marks, mode) <= StyleClasses(marks) + {HighlightKey(marks), "highlight-selection"}
    ensures mode == "view" ==> LeafClasses(marks, mode) == StyleClasses(marks)
  {
  }

  /** The selection highlight appears exactly when outside view mode the
      run is marked selected, or a `style-highlight-selection` key asks for
      it; the typed highlight likewise, except that a highlight type of
      `selection` is overwritten by the selection entry. */
  lemma HighlightClasses(marks: map<string, Value>, mode: string)
    ensures "highlight-selection" in LeafClasses(marks, mode) <==>
              (mode != "view" && TruthyKey(marks, "isSelection"))
              || "highlight-selection" in StyleClasses(marks)
    ensures HighlightKey(marks) != "highlight-selection" ==>
              (HighlightKey(marks) in LeafClasses(marks, mode) <==>
                 (mode != "view" && TruthyKey(marks, "highlight"))
                 || HighlightKey(marks) in StyleClasses(marks))
  {
  }

  /** A selection-typed highlight on an unselected run shows no class. */
  lemma SelectionTypedHighlightIsLost()
    ensures var marks := map["highlight" := VBool(true), "highlightType" := VStr("selection")];
            LeafClasses(marks, "edit") == {}
  {
    var marks := map["highlight" := VBool(true), "highlightType" := VStr("selection")];
    assert Get(marks, "highlightType") == Some(VStr("selection"));
    assert HighlightKey(marks) == "highlight-selection";
    assert StyleClasses(marks) == {} by {
      forall k | k in marks
        ensures !StartsWith(k, StylePrefix)
      {
        assert k == "highlight" || k == "highlightType";
        assert k[0] == 'h';
      }
    }
  }

  /** The children of a rendered run: its text, a wrapper added by a
      registered leaf renderer, or anything else the editor passes. */
  datatype Child = Str(s: string) | Wrapped(name: string, inner: Child) | Nodes

  /** The fold over the registered leaf renderers: each whose name is a key
      of the run wraps what was built so far. */
  function WrapLeafs(names: seq<string>, keys: set<string>, acc: Child): (r: Child)
    ensures r.Str? <==> acc.Str? && forall i :: 0 <= i < |names| ==> names[i] !in keys
    ensures r.Str? ==> r == acc
    decreases |names|
  {
    if names == [] then acc
    else WrapLeafs(names[1..], keys, if names[0] in keys then Wrapped(names[0], acc) else acc)
  }

  /** A piece of the output: a span with its classes, or a line break. */
  datatype Piece = Span(classes: set<string>, content: Child) | LineBreak

  /** One span per segment, with a line break after it when the text held
      a newline and the segment is not the last. */
  function SegmentPieces(segs: seq<string>, i: nat, hasNewline: bool, cls: set<string>): seq<Piece>
    decreases |segs| - i
  {
    if i >= |segs| then []
    else
      (if hasNewline && |segs| - 1 > i then [Span(cls, Str(segs[i])), LineBreak]
       else [Span(cls, Str(segs[i]))])
      + SegmentPieces(segs, i + 1, hasNewline, cls)
  }

  /** The view-mode rendering of a string child: split on newlines. */
  function ViewLines(s: string, cls: set<string>): seq<Piece> {
    SegmentPieces(Split(s, '\n'), 0, '\n' in s, cls)
  }

  /** What the pieces read as: span texts, with a newline per break. */
  function Reassemble(ps: seq<Piece>): string
    decreases |ps|
  {
    if ps == [] then ""
    else
      (match ps[0]
       case LineBreak => "\n"
       case Span(_, c) => if c.Str? then c.s else "")
      + Reassemble(ps[1..])
  }

  function Breaks(ps: seq<Piece>): nat
    decreases |ps|
  {
    if ps == [] then 0 else (if ps[0] == LineBreak then 1 else 0) + Breaks(ps[1..])
  }

  lemma {:induction false} ReassembleAppend(a: seq<Piece>, b: seq<Piece>)
    ensures Reassemble(a + b) == Reassemble(a) + Reassemble(b)
    ensures Breaks(a + b) == Breaks(a) + Breaks(b)
    decreases |a|
  {
    if a == [] {
      assert a + b == b;
    } else {
      assert (a + b)[0] == a[0];
      assert (a + b)[1..] == a[1..] + b;
      ReassembleAppend(a[1..], b);
    }
  }

  /** With breaks on, the pieces from segment `i` on read as the remaining
      segments joined with newlines, with one break between neighbours. */
  lemma {:induction false} SegmentsJoin(segs: seq<string>, i: nat, cls: set<string>)
    requires i < |segs|
    ensures Reassemble(SegmentPieces(segs, i, true, cls)) == Join(segs[i..], '\n')
    ensures Breaks(SegmentPieces(segs, i, true, cls)) == |segs| - 1 - i
    decreases |segs| - i
  {
    var rest := SegmentPieces(segs, i + 1, true, cls);
    if i == |segs| - 1 {
      assert rest == [];
      assert segs[i..] == [segs[i]];
      ReassembleAppend([Span(cls, Str(segs[i]))], rest);
      assert Reassemble([Span(cls, Str(segs[i]))]) == segs[i] + Reassemble([]);
    } else {
      SegmentsJoin(segs, i + 1, cls);
      var head := [Span(cls, Str(segs[i])), LineBreak];
      ReassembleAppend(head, rest);
      assert head[1..] == [LineBreak];
      assert Reassemble(head) == segs[i] + ("\n" + Reassemble([]));
      assert Breaks(head) == 1 by {
        assert Breaks(head[1..]) == 1 + Breaks([]);
      }
      assert segs[i..][1..] == segs[i + 1..];
      assert Join(segs[i..], '\n') == segs[i] + ['\n'] + Join(segs[i + 1..], '\n');
    }
  }

  /** Soft breaks in view mode: the spans and breaks read back as the
      original string, with exactly one break per newline. */
  lemma ViewLinesRoundTrip(s: string, cls: set<string>)
    ensures Reassemble(ViewLines(s, cls)) == s
    ensures Breaks(ViewLines(s, cls)) == Count(s, '\n')
  {
    SplitCount(s, '\n');
    if '\n' in s {
      SegmentsJoin(Split(s, '\n'), 0, cls);
      assert Split(s, '\n')[0..] == Split(s, '\n');
      JoinSplit(s, '\n');
    } else {
      SplitPiece(s, '\n');
      var one := SegmentPieces([s], 1, false, cls);
      assert one == [];
      assert ViewLines(s, cls) == [Span(cls, Str(s))] + one;
      assert Reassemble([Span(cls, Str(s))]) == s + Reassemble([]);
      assert Breaks([Span(cls, Str(s))]) == 0 + Breaks([]);
    }
  }

  /** `Leaf`: the children after the leaf renderers, the classes, then in
      view mode a string child is segmented at newlines; otherwise one
      span. */
  function RenderLeaf(registered: seq<string>, leaf: Run, mode: string, children: Child): (r: seq<Piece>)
    ensures |r| >= 1
  {
    var c := WrapLeafs(registered, leaf.marks.Keys + {"text"}, children);
    var cls := LeafClasses(leaf.marks, mode);
    if mode == "view" && c.Str? then
      ViewLines(c.s, cls)
    else [Span(cls, c)]
  }

  /** Segmentation happens only in view mode, for a string child that no
      registered leaf renderer wrapped; it then reads back as the string.
      In every other case the run is one span. */
  lemma RenderLeafShape(registered: seq<string>, leaf: Run, mode: string, children: Child)
    ensures var keys := leaf.marks.Keys + {"text"};
            var plain := children.Str? && forall i :: 0 <= i < |registered| ==> registered[i] !in keys;
            var r := RenderLeaf(registered, leaf, mode, children);
            && (mode == "view" && plain ==> Reassemble(r) == children.s && Breaks(r) == Count(children.s, '\n'))
            && (!(mode == "view" && plain) ==> |r| == 1 && r[0].Span? && r[0].classes == LeafClasses(leaf.marks, mode))
  {
    if children.Str? {
      ViewLinesRoundTrip(children.s, LeafClasses(leaf.marks, mode));
    }
  }

  // ---- Element ----

  /** What `Element` renders: the component chosen and the class name. */
  datatype ElementView = ElementView(component: string, className: Option<string>)

  /** `Element`: the component registered for the type, else the default
      one; the class name is the element's `styleName`. */
  function RenderElement(registered: set<string>, el: Node): (r: ElementView)
    requires el.Element?
    ensures r.component in registered || r.component == "default"
    ensures r.component == el.kind <==> el.kind in registered || el.kind == "default"
    ensures el.kind !in registered ==> r.component == "default"
    ensures r.className == el.styleName
  {
    ElementView(if el.kind in registered then el.kind else "default", el.styleName)
  }
}

=== FILE: selection.dfy ===
/** The node queries the style and structure engines make over the current
    selection (`Editor.nodes` with a `match` callback, in mode `all` or
    `highest`), stated over the tree.

    The traversal starts at the root, descends towards the start path of
    the selection and stops after its end path. A node is therefore visited
    exactly when its path compares (by `Path.compare`) at or after the
    start and at or before the end; ancestors of the start and descendants
    of the end compare equal and are included. A node outside that window
    has no visited descendant, so the model does not enter it. */
module Selection {
  import opened Wrappers
  import opened Tree

  /** `Point.isBefore`: by path first, then by offset. */
  predicate PointBefore(p: Point, q: Point) {
    var c := Compare(p.path, q.path);
    c == -1 || (c == 0 && p.offset < q.offset)
  }

  /** `Range.isBackward`, `Range.start` and `Range.end`. */
  predicate IsBackward(r: Range) {
    PointBefore(r.focus, r.anchor)
  }

  function Start(r: Range): Point {
    if IsBackward(r) then r.focus else r.anchor
  }

  function End(r: Range): Point {
    if IsBackward(r) then r.anchor else r.focus
  }

  /** The window of paths a query over the selection visits. */
  datatype Span = Span(from: Path, to: Path)

  function SpanOf(r: Range): Span {
    Span(Start(r).path, End(r).path)
  }

  predicate Visited(p: Path, sp: Span) {
    Compare(p, sp.from) >= 0 && Compare(p, sp.to) <= 0
  }

  /** A node with its path, as `Editor.nodes` yields it. */
  datatype Entry = Entry(node: Node, path: Path)

  /** Mode `all`: every visited node below the root satisfying `m`, in
      document order. `cs[0]` sits at `prefix + [base]`. */
  function NodesAll(cs: seq<Node>, prefix: Path, base: nat, sp: Span, m: Node -> bool): (r: seq<Entry>)
    ensures forall k :: 0 <= k < |r| ==> m(r[k].node) && Visited(r[k].path, sp)
    decreases cs
  {
    if cs == [] then []
    else
      var p := prefix + [base];
      (if !Visited(p, sp) then []
       else (if m(cs[0]) then [Entry(cs[0], p)] else [])
            + (match cs[0]
               case Text(_, _) => []
               case Element(_, _, gs) => NodesAll(gs, p, 0, sp, m)))
      + NodesAll(cs[1..], prefix, base + 1, sp, m)
  }

  /** Mode `highest`: a visited node satisfying `m` is yielded and its
      descendants are skipped; otherwise the query looks further down. */
  function NodesHighest(cs: seq<Node>, prefix: Path, base: nat, sp: Span, m: Node -> bool): (r: seq<Entry>)
    ensures forall k :: 0 <= k < |r| ==> m(r[k].node) && Visited(r[k].path, sp)
    decreases cs
  {
    if cs == [] then []
    else
      var p := prefix + [base];
      (if !Visited(p, sp) then []
       else if m(cs[0]) then [Entry(cs[0], p)]
       else match cs[0]
            case Text(_, _) => []
            case Element(_, _, gs) => NodesHighest(gs, p, 0, sp, m))
      + NodesHighest(cs[1..], prefix, base + 1, sp, m)
  }

  /** A top-level index lies in the window exactly when it lies between the
      first indices of the start and end paths. */
  lemma VisitedTopLevel(i: nat, sp: Span)
    ensures Visited([i], sp) <==>
              (sp.from == [] || sp.from[0] <= i) && (sp.to == [] || i <= sp.to[0])
  {
    var p: Path := [i];
    assert p[1..] == [];
    if sp.from != [] {
      assert Compare(p, sp.from) == if i < sp.from[0] then -1 else if i > sp.from[0] then 1
                                    else Compare(p[1..], sp.from[1..]);
    }
    if sp.to != [] {
      assert Compare(p, sp.to) == if i < sp.to[0] then -1 else if i > sp.to[0] then 1
                                  else Compare(p[1..], sp.to[1..]);
    }
  }

  /** The top-level entries in the window, from index `base` on. */
  function TopLevelInSpan(cs: seq<Node>, base: nat, sp: Span): (r: seq<Entry>)
    ensures forall k :: 0 <= k < |r| ==>
              |r[k].path| == 1 && base <= r[k].path[0] < base + |cs|
              && r[k].node == cs[r[k].path[0] - base] && Visited(r[k].path, sp)
    decreases cs
  {
    if cs == [] then []
    else
      (if Visited([base], sp) then [Entry(cs[0], [base])] else [])
      + TopLevelInSpan(cs[1..], base + 1, sp)
  }

  /** With a callback every top-level node satisfies (such as `!isEditor`),
      mode `highest` yields exactly the top-level nodes in the window. */
  lemma {:induction false} HighestIsTopLevel(cs: seq<Node>, base: nat, sp: Span, m: Node -> bool)
    requires forall i :: 0 <= i < |cs| ==> m(cs[i])
    ensures NodesHighest(cs, [], base, sp, m) == TopLevelInSpan(cs, base, sp)
    decreases cs
  {
    if cs != [] {
      assert [] + [base] == [base];
      HighestIsTopLevel(cs[1..], base + 1, sp, m);
    }
  }

  /** Comparison is decided at the first differing index, so extending a
      path that is strictly before or after another keeps the verdict: a
      node outside the window has no descendant inside it. */
  lemma {:induction false} CompareExtend(p: Path, q: Path, x: Path)
    ensures Compare(p, x) != 0 ==> Compare(p + q, x) == Compare(p, x)
    decreases |p|
  {
    if |p| > 0 && |x| > 0 && p[0] == x[0] {
      assert (p + q)[0] == p[0];
      assert (p + q)[1..] == p[1..] + q;
      CompareExtend(p[1..], q, x[1..]);
    }
  }

  /** `e.node` sits at `e.path` below `cs`, where `cs[0]` sits at
      `prefix + [base]`. */
  predicate Locates(cs: seq<Node>, prefix: Path, base: nat, e: Entry) {
    && |e.path| > |prefix| && e.path[..|prefix|] == prefix && e.path[|prefix|] >= base
    && NodeAt(cs, [e.path[|prefix|] - base] + e.path[|prefix| + 1..]) == Some(e.node)
  }

  /** Skipping a first node shifts every index by one. */
  lemma NodeAtTail(cs: seq<Node>, path: Path)
    requires cs != [] && |path| >= 1 && path[0] >= 1
    ensures NodeAt(cs, path) == NodeAt(cs[1..], [path[0] - 1] + path[1..])
  {
    var path' := [path[0] - 1] + path[1..];
    assert path'[1..] == path[1..];
    if path[0] < |cs| {
      assert cs[1..][path[0] - 1] == cs[path[0]];
    }
  }

  /** A node below `cs` is the first node itself, lies below the first
      node, or lies below one of the others. */
  lemma LocatesSplit(cs: seq<Node>, prefix: Path, base: nat, e: Entry)
    requires cs != []
    ensures Locates(cs, prefix, base, e) <==>
              || e == Entry(cs[0], prefix + [base])
              || (cs[0].Element? && Locates(cs[0].children, prefix + [base], 0, e))
              || Locates(cs[1..], prefix, base + 1, e)
  {
    var k := |prefix|;
    var p := prefix + [base];
    if |e.path| > k && e.path[..k] == prefix {
      var j := e.path[k];
      var rel := [j - base] + e.path[k + 1..];
      if j == base {
        if |e.path| == k + 1 {
          assert e.path == p;
          assert rel == [0];
        } else {
          assert e.path[..k + 1] == p;
          assert rel[1..] == e.path[k + 1..];
          assert [e.path[k + 1] - 0] + e.path[k + 2..] == e.path[k + 1..];
        }
      } else if j > base {
        NodeAtTail(cs, rel);
        assert rel[1..] == e.path[k + 1..];
        assert e.path[..k + 1] != p by { assert e.path[..k + 1][k] == j; }
      } else {
        assert e.path[..k + 1] != p by { assert e.path[..k + 1][k] == j; }
      }
    } else {
      assert e.path != p && (|e.path| > k ==> e.path[..k + 1] != p) by {
        if |e.path| > k { assert e.path[..k + 1][..k] == e.path[..k]; }
      }
    }
  }

  /** A node below a node outside the window is outside it too. */
  lemma OutsideBelow(gs: seq<Node>, p: Path, e: Entry, sp: Span)
    requires !Visited(p, sp) && Locates(gs, p, 0, e)
    ensures !Visited(e.path, sp)
  {
    assert e.path == p + e.path[|p|..];
    CompareExtend(p, e.path[|p|..], sp.from);
    CompareExtend(p, e.path[|p|..], sp.to);
  }

  /** Mode `all` yields exactly the nodes at their own paths that lie in
      the window and satisfy the callback: nothing is missed, nothing is
      invented, and each entry's node is the node at its path. */
  lemma {:induction false} NodesAllExact(cs: seq<Node>, prefix: Path, base: nat, sp: Span,
                                         m: Node -> bool, e: Entry)
    ensures e in NodesAll(cs, prefix, base, sp, m) <==>
              Locates(cs, prefix, base, e) && Visited(e.path, sp) && m(e.node)
    decreases cs
  {
    if cs == [] {
      assert !Locates(cs, prefix, base, e);
    } else {
      var p := prefix + [base];
      var own := if m(cs[0]) then [Entry(cs[0], p)] else [];
      var below := match cs[0]
                   case Text(_, _) => []
                   case Element(_, _, gs) => NodesAll(gs, p, 0, sp, m);
      var rest := NodesAll(cs[1..], prefix, base + 1, sp, m);
      assert NodesAll(cs, prefix, base, sp, m) == (if !Visited(p, sp) then [] else own + below) + rest;
      LocatesSplit(cs, prefix, base, e);
      NodesAllExact(cs[1..], prefix, base + 1, sp, m, e);
      if cs[0].Element? {
        NodesAllExact(cs[0].children, p, 0, sp, m, e);
        if !Visited(p, sp) && Locates(cs[0].children, p, 0, e) {
          OutsideBelow(cs[0].children, p, e, sp);
        }
      }
    }
  }

  /** For the editor's selection: an entry is yielded exactly when its node
      is the node at its path, lies in the window and satisfies `m`. */
  lemma SelectedAllExact(ed: Editor, m: Node -> bool, n: Node, p: Path)
    requires ed.selection.Some?
    ensures Entry(n, p) in SelectedAll(ed, m) <==>
              NodeAt(ed.children, p) == Some(n) && Visited(p, SpanOf(ed.selection.value)) && m(n)
  {
    NodesAllExact(ed.children, [], 0, SpanOf(ed.selection.value), m, Entry(n, p));
    if |p| > 0 {
      assert [p[0] - 0] + p[1..] == p;
      assert p[..0] == [];
    }
  }

  /** `Editor.nodes(editor, { match, mode })` at the editor's selection;
      there are no nodes when there is no selection. */
  function SelectedAll(ed: Editor, m: Node -> bool): seq<Entry> {
    if ed.selection.None? then [] else NodesAll(ed.children, [], 0, SpanOf(ed.selection.value), m)
  }

  function SelectedHighest(ed: Editor, m: Node -> bool): seq<Entry> {
    if ed.selection.None? then [] else NodesHighest(ed.children, [], 0, SpanOf(ed.selection.value), m)
  }
}

=== FILE: strings.dfy ===
/** `String.prototype.split` and `Array.prototype.join` on a one-character
    separator, with the round-trip facts that relate them. */
module Strings {

  /** `s.split(sep)`: never empty; the empty string splits into `[""]`, and
      each separator starts a new, possibly empty, piece. */
  function Split(s: string, sep: char): (r: seq<string>)
    ensures |r| >= 1
    ensures forall i :: 0 <= i < |r| ==> sep !in r[i]
    decreases |s|
  {
    if |s| == 0 then [""]
    else
      var rest := Split(s[1..], sep);
      if s[0] == sep then [""] + rest
      else [[s[0]] + rest[0]] + rest[1..]
  }

  /** `ts.join(sep)`: the pieces with one separator between neighbours. */
  function Join(ts: seq<string>, sep: char): string
    decreases |ts|
  {
    if |ts| == 0 then ""
    else if |ts| == 1 then ts[0]
    else ts[0] + [sep] + Join(ts[1..], sep)
  }

  /** Number of occurrences of `c` in `s`. */
  function Count(s: string, c: char): nat
    decreases |s|
  {
    if |s| == 0 then 0 else (if s[0] == c then 1 else 0) + Count(s[1..], c)
  }

  /** The decimal spelling of a whole number, as JavaScript's string
      conversion gives it. */
  function Digits(n: nat): string
    decreases n
  {
    if n < 10 then ["0123456789"[n]] else Digits(n / 10) + ["0123456789"[n % 10]]
  }

  predicate StartsWith(s: string, prefix: string) {
    |prefix| <= |s| && s[..|prefix|] == prefix
  }

  /** Joining the pieces of a split gives back the original string. */
  lemma {:induction false} JoinSplit(s: string, sep: char)
    ensures Join(Split(s, sep), sep) == s
    decreases |s|
  {
    if |s| > 0 {
      var rest := Split(s[1..], sep);
      JoinSplit(s[1..], sep);
      if s[0] == sep {
        assert Split(s, sep) == [""] + rest;
        assert ([""] + rest)[1..] == rest;
      } else {
        var first := [s[0]] + rest[0];
        assert Split(s, sep) == [first] + rest[1..];
        if |rest| == 1 {
          assert Join(rest, sep) == rest[0];
        } else {
          assert ([first] + rest[1..])[1..] == rest[1..];
          assert Join(rest, sep) == rest[0] + [sep] + Join(rest[1..], sep);
        }
      }
    }
  }

  /** Splitting a string that begins with a separator-free piece `t`. */
  lemma {:induction false} SplitPrefix(t: string, x: string, sep: char)
    requires sep !in t
    ensures Split(t + x, sep) == [t + Split(x, sep)[0]] + Split(x, sep)[1..]
    decreases |t|
  {
    if |t| == 0 {
      var r := Split(x, sep);
      assert t + x == x;
      assert t + r[0] == r[0];
      assert [r[0]] + r[1..] == r;
    } else {
      assert (t + x)[0] == t[0];
      assert (t + x)[1..] == t[1..] + x;
      SplitPrefix(t[1..], x, sep);
      assert [t[0]] + (t[1..] + Split(x, sep)[0]) == t + Split(x, sep)[0];
    }
  }

  /** A separator-free piece is split into itself alone. */
  lemma SplitPiece(t: string, sep: char)
    requires sep !in t
    ensures Split(t, sep) == [t]
  {
    SplitPrefix(t, "", sep);
    assert t + "" == t;
  }

  /** Splitting a join of separator-free pieces gives the pieces back; the
      empty list is the one exception, since `[].join(sep)` is `""` and
      `"".split(sep)` is `[""]`. */
  lemma {:induction false} SplitJoin(ts: seq<string>, sep: char)
    requires |ts| >= 1
    requires forall i :: 0 <= i < |ts| ==> sep !in ts[i]
    ensures Split(Join(ts, sep), sep) == ts
    decreases |ts|
  {
    if |ts| == 1 {
      SplitPiece(ts[0], sep);
    } else {
      var u := Join(ts[1..], sep);
      SplitJoin(ts[1..], sep);
      assert ts[0] + [sep] + u == ts[0] + ([sep] + u);
      SplitPrefix(ts[0], [sep] + u, sep);
      assert ([sep] + u)[0] == sep;
      assert ([sep] + u)[1..] == u;
      assert Split([sep] + u, sep) == [""] + ts[1..];
      assert ts[0] + "" == ts[0];
      assert ([""] + ts[1..])[1..] == ts[1..];
    }
  }

  /** A split yields one more piece than there are separators. */
  lemma {:induction false} SplitCount(s: string, sep: char)
    ensures |Split(s, sep)| == Count(s, sep) + 1
    decreases |s|
  {
    if |s| > 0 {
      SplitCount(s[1..], sep);
    }
  }

  /** The separators of a join of separator-free pieces are exactly the ones
      placed between neighbouring pieces. */
  lemma {:induction false} JoinCount(ts: seq<string>, sep: char)
    requires forall i :: 0 <= i < |ts| ==> sep !in ts[i]
    ensures |ts| >= 1 ==> Count(Join(ts, sep), sep) + 1 == |ts|
    decreases |ts|
  {
    if |ts| >= 1 {
      JoinSplit(Join(ts, sep), sep);
      SplitJoin(ts, sep);
      SplitCount(Join(ts, sep), sep);
    }
  }
}

=== FILE: styles.dfy ===
/** The style engine: block styles as space-separated tokens of an
    element's `styleName`, and inline styles as `style-` mark keys on text
    runs. */
module Styles {
  import opened Wrappers
  import opened Tree
  import opened Strings
  import opened Selection

  /** `styleName.split(' ')`. */
  function Tokens(s: string): seq<string> {
    Split(s, ' ')
  }

  /** A token that can be found again after joining: nonempty, no space. */
  predicate ValidToken(t: string) {
    t != "" && ' ' !in t
  }

  /** `tokens.filter((x) => x !== style)`. */
  function Without(ts: seq<string>, style: string): (r: seq<string>)
    ensures style !in r
    ensures forall t :: t in r ==> t in ts
    decreases |ts|
  {
    if ts == [] then []
    else (if ts[0] == style then [] else [ts[0]]) + Without(ts[1..], style)
  }

  /** The nonempty tokens, dropping the empty pieces a split can produce. */
  function Words(ts: seq<string>): seq<string>
    decreases |ts|
  {
    if ts == [] then [] else (if ts[0] == "" then [] else [ts[0]]) + Words(ts[1..])
  }

  lemma {:induction false} WithoutAppend(a: seq<string>, b: seq<string>, style: string)
    ensures Without(a + b, style) == Without(a, style) + Without(b, style)
    decreases |a|
  {
    if a == [] {
      assert a + b == b;
    } else {
      assert (a + b)[0] == a[0];
      assert (a + b)[1..] == a[1..] + b;
      WithoutAppend(a[1..], b, style);
    }
  }

  lemma {:induction false} WithoutAbsent(ts: seq<string>, style: string)
    requires style !in ts
    ensures Without(ts, style) == ts
    decreases |ts|
  {
    if ts != [] {
      WithoutAbsent(ts[1..], style);
    }
  }

  lemma {:induction false} WithoutTwice(ts: seq<string>, style: string)
    ensures Without(Without(ts, style), style) == Without(ts, style)
  {
    WithoutAbsent(Without(ts, style), style);
  }

  /** A node's `styleName` when it is a string; text runs have none. */
  function StyleNameOf(n: Node): Option<string> {
    if n.Element? then n.styleName else None
  }

  /** The per-node test of `isBlockStyleActive`: a string `styleName` with
      `style` among its tokens. */
  predicate HasToken(styleName: Option<string>, style: string) {
    styleName.Some? && style in Tokens(styleName.value)
  }

  /** The new `styleName` that `toggleBlockStyleInSelection` computes for
      one node: exactly `style` when there is no string `styleName`; the
      other tokens joined back when `style` is a token; `style` appended
      otherwise. */
  function ToggleStyleName(styleName: Option<string>, style: string): (r: string)
    ensures styleName.None? ==> r == style
    ensures ' ' !in style && styleName.Some? && !HasToken(styleName, style) ==>
              Tokens(r) == Tokens(styleName.value) + [style]
    ensures HasToken(styleName, style) ==>
              var kept := Without(Tokens(styleName.value), style);
              Tokens(r) == if kept == [] then [""] else kept
    ensures ValidToken(style) ==> (style in Tokens(r) <==> !HasToken(styleName, style))
    ensures ValidToken(style) && styleName.Some? ==>
              Without(Tokens(r), style) == Without(Tokens(styleName.value), style)
              || (Without(Tokens(r), style) == [""] && Without(Tokens(styleName.value), style) == [])
  {
    match styleName
    case None =>
      PieceFacts(style);
      style
    case Some(s) =>
      var ts := Tokens(s);
      if style in ts then
        var kept := Without(ts, style);
        RemoveFacts(ts, style);
        Join(kept, ' ')
      else
        AddFacts(ts, style);
        Join(ts + [style], ' ')
  }

  lemma PieceFacts(t: string)
    ensures ' ' !in t ==> Tokens(t) == [t]
  {
    if ' ' !in t {
      SplitPiece(t, ' ');
    }
  }

  /** Joining the kept tokens and splitting again gives them back. */
  lemma RemoveFacts(ts: seq<string>, style: string)
    requires forall i :: 0 <= i < |ts| ==> ' ' !in ts[i]
    ensures var kept := Without(ts, style);
            Tokens(Join(kept, ' ')) == (if kept == [] then [""] else kept)
            && Without(kept, style) == kept
  {
    var kept := Without(ts, style);
    if kept != [] {
      assert forall i :: 0 <= i < |kept| ==> kept[i] in ts;
      SplitJoin(kept, ' ');
    }
    WithoutAbsent(kept, style);
  }

  /** Appending a space-free token and splitting again gives the tokens and
      the new one. */
  lemma AddFacts(ts: seq<string>, style: string)
    requires |ts| >= 1 && forall i :: 0 <= i < |ts| ==> ' ' !in ts[i]
    requires style !in ts
    ensures ' ' !in style ==> Tokens(Join(ts + [style], ' ')) == ts + [style]
    ensures Without(ts + [style], style) == ts
    ensures Without(ts, style) == ts
  {
    var grown := ts + [style];
    if ' ' !in style {
      SplitJoin(grown, ' ');
    }
    WithoutAppend(ts, [style], style);
    WithoutAbsent(ts, style);
    assert Without([style], style) == [] + Without([], style);
    assert ts + [] == ts;
  }

  /** Dropping empty pieces, the other tokens survive a toggle unchanged and
      in their original order. */
  lemma ToggleKeepsOtherTokens(s: string, style: string)
    requires ValidToken(style)
    ensures Words(Without(Tokens(ToggleStyleName(Some(s), style)), style))
            == Words(Without(Tokens(s), style))
  {
    var r := ToggleStyleName(Some(s), style);
    if Without(Tokens(r), style) != Without(Tokens(s), style) {
      assert Words([""]) == [] + Words([]);
    }
  }

  /** Toggling a token that is absent and then toggling it again restores
      the original `styleName` exactly. */
  lemma ToggleTwiceRestores(s: string, style: string)
    requires ValidToken(style)
    requires !HasToken(Some(s), style)
    ensures ToggleStyleName(Some(ToggleStyleName(Some(s), style)), style) == s
  {
    var once := ToggleStyleName(Some(s), style);
    var ts := Tokens(s);
    assert Tokens(once) == ts + [style];
    WithoutAppend(ts, [style], style);
    WithoutAbsent(ts, style);
    assert Without([style], style) == [];
    assert Without(Tokens(once), style) == ts + [];
    assert ts + [] == ts;
    JoinSplit(s, ' ');
  }

  /** The callback of `isBlockStyleActive`: an element with a string
      `styleName` (the editor root never reaches a callback here). */
  predicate HasStyleName(n: Node) {
    n.Element? && n.styleName.Some?
  }

  /** `isBlockStyleActive(editor, style)`: some highest-level node with a
      string `styleName` in the selection has `style` among its tokens. */
  predicate IsBlockStyleActive(ed: Editor, style: string) {
    var sn := SelectedHighest(ed, HasStyleName);
    exists k :: 0 <= k < |sn| && HasToken(StyleNameOf(sn[k].node), style)
  }

  /** `Transforms.setNodes(editor, { styleName }, { at: path })`. A text
      run has no `styleName` in this model and is left as it is. */
  function SetStyleNameAt(cs: seq<Node>, path: Path, name: string): (r: seq<Node>)
    ensures |r| == |cs|
    ensures forall j :: 0 <= j < |cs| && (path == [] || j != path[0]) ==> r[j] == cs[j]
    ensures match NodeAt(cs, path)
            case Some(Element(k, _, gs)) => NodeAt(r, path) == Some(Element(k, Some(name), gs))
            case _ => r == cs
    ensures |path| == 1 && path[0] < |cs| && cs[path[0]].Element? ==>
              r == cs[path[0] := Element(cs[path[0]].kind, Some(name), cs[path[0]].children)]
    decreases |path|
  {
    if |path| == 0 || path[0] >= |cs| then cs
    else
      var i := path[0];
      match cs[i]
      case Text(_, _) => cs
      case Element(k, sn, gs) =>
        if |path| == 1 then cs[i := Element(k, Some(name), gs)]
        else cs[i := Element(k, sn, SetStyleNameAt(gs, path[1..], name))]
  }

  /** Apply the per-node toggle to each entry found, reading each node's
      `styleName` from the list taken before any change, as the loop does. */
  function ApplyStyleToggles(cs: seq<Node>, sn: seq<Entry>, style: string): (r: seq<Node>)
    ensures |r| == |cs|
    decreases |sn|
  {
    if sn == [] then cs
    else ApplyStyleToggles(SetStyleNameAt(cs, sn[0].path, ToggleStyleName(StyleNameOf(sn[0].node), style)),
                           sn[1..], style)
  }

  /** `toggleBlockStyleInSelection(editor, style)`: every highest-level
      non-editor node in the selection is toggled on its own. */
  function ToggleBlockStyleInSelection(ed: Editor, style: string): Editor {
    var sn := SelectedHighest(ed, (n: Node) => true);
    Editor(ApplyStyleToggles(ed.children, sn, style), ed.selection)
  }

  /** One node after its toggle. */
  function Toggled(n: Node, style: string): Node {
    match n
    case Text(_, _) => n
    case Element(k, sn, gs) => Element(k, Some(ToggleStyleName(sn, style)), gs)
  }

  /** The pointwise result: toggled inside the window, unchanged outside. */
  function ToggleTopLevel(cs: seq<Node>, base: nat, sp: Span, style: string): (r: seq<Node>)
    ensures |r| == |cs|
    decreases |cs|
  {
    if cs == [] then []
    else [if Visited([base], sp) then Toggled(cs[0], style) else cs[0]]
         + ToggleTopLevel(cs[1..], base + 1, sp, style)
  }

  lemma {:induction false} ToggleTopLevelAt(cs: seq<Node>, base: nat, sp: Span, style: string, i: nat)
    requires i < |cs|
    ensures ToggleTopLevel(cs, base, sp, style)[i]
            == if Visited([base + i], sp) then Toggled(cs[i], style) else cs[i]
    decreases |cs|
  {
    if i > 0 {
      ToggleTopLevelAt(cs[1..], base + 1, sp, style, i - 1);
      assert base + i == (base + 1) + (i - 1);
    }
  }

  /** Setting the `styleName` of a top-level element. */
  lemma SetTopLevel(w: seq<Node>, i: nat, n: Node, style: string)
    requires i < |w| && w[i] == n
    ensures SetStyleNameAt(w, [i], ToggleStyleName(StyleNameOf(n), style)) == w[i := Toggled(n, style)]
  {
  }

  /** The first entry of the window: toggling index `base` (or not) turns
      the fold over the window into the fold over the rest of it. */
  lemma PointwiseStep(w: seq<Node>, cs: seq<Node>, base: nat, sp: Span, style: string)
    requires cs != [] && base + |cs| == |w| && w[base..] == cs
    ensures var head := if Visited([base], sp) then Toggled(cs[0], style) else cs[0];
            var w' := w[base := head];
            && ApplyStyleToggles(w, TopLevelInSpan(cs, base, sp), style)
               == ApplyStyleToggles(w', TopLevelInSpan(cs[1..], base + 1, sp), style)
            && w'[base + 1..] == cs[1..]
            && w'[..base + 1] == w[..base] + [head]
  {
    var rest := TopLevelInSpan(cs[1..], base + 1, sp);
    var head := if Visited([base], sp) then Toggled(cs[0], style) else cs[0];
    assert cs[0] == w[base];
    var w' := w[base := head];
    assert w'[base + 1..] == cs[1..];
    assert w'[..base + 1] == w[..base] + [head];
    if Visited([base], sp) {
      var e := Entry(cs[0], [base]);
      assert TopLevelInSpan(cs, base, sp) == [e] + rest;
      SetTopLevel(w, base, cs[0], style);
      assert ([e] + rest)[1..] == rest;
    } else {
      assert TopLevelInSpan(cs, base, sp) == [] + rest;
      assert [] + rest == rest;
      assert head == w[base];
      assert w' == w;
      assert ApplyStyleToggles(w, TopLevelInSpan(cs, base, sp), style) == ApplyStyleToggles(w, rest, style);
    }
  }

  /** Reassembling the prefix, the toggled head and the pointwise rest. */
  lemma PointwiseJoin(w: seq<Node>, cs: seq<Node>, base: nat, sp: Span, style: string, head: Node)
    requires cs != [] && base + |cs| == |w|
    requires head == if Visited([base], sp) then Toggled(cs[0], style) else cs[0]
    ensures w[base := head][..base + 1] + ToggleTopLevel(cs[1..], base + 1, sp, style)
            == w[..base] + ToggleTopLevel(cs, base, sp, style)
  {
    var tail := ToggleTopLevel(cs[1..], base + 1, sp, style);
    assert w[base := head][..base + 1] == w[..base] + [head];
    assert ToggleTopLevel(cs, base, sp, style) == [head] + tail;
    assert w[..base] + [head] + tail == w[..base] + ([head] + tail);
  }

  /** Folding the toggles over the top-level entries of the window, from
      index `base` on, gives the pointwise result. */
  lemma {:induction false} ApplyTopLevelIsPointwise(w: seq<Node>, cs: seq<Node>, base: nat, sp: Span, style: string)
    requires base + |cs| == |w| && w[base..] == cs
    ensures ApplyStyleToggles(w, TopLevelInSpan(cs, base, sp), style)
            == w[..base] + ToggleTopLevel(cs, base, sp, style)
    decreases |cs|
  {
    if cs == [] {
      assert w[..base] == w;
    } else {
      var head := if Visited([base], sp) then Toggled(cs[0], style) else cs[0];
      var w' := w[base := head];
      PointwiseStep(w, cs, base, sp, style);
      ApplyTopLevelIsPointwise(w', cs[1..], base + 1, sp, style);
      PointwiseJoin(w, cs, base, sp, style, head);
    }
  }

  /** The toggle over the selection is the pointwise toggle of the
      top-level nodes. */
  lemma ToggleIsTopLevel(ed: Editor, style: string)
    requires ed.selection.Some?
    ensures ToggleBlockStyleInSelection(ed, style).children
            == ToggleTopLevel(ed.children, 0, SpanOf(ed.selection.value), style)
  {
    var sp := SpanOf(ed.selection.value);
    HighestIsTopLevel(ed.children, 0, sp, (n: Node) => true);
    assert SelectedHighest(ed, (n: Node) => true) == TopLevelInSpan(ed.children, 0, sp);
    ApplyTopLevelIsPointwise(ed.children, ed.children, 0, sp, style);
    assert ed.children[..0] + ToggleTopLevel(ed.children, 0, sp, style)
           == ToggleTopLevel(ed.children, 0, sp, style);
  }

  /** After `toggleBlockStyleInSelection`, each top-level node inside the
      selection is toggled and every other node is unchanged. */
  lemma ToggleBlockStyleEffect(ed: Editor, style: string)
    requires ed.selection.Some?
    ensures var after := ToggleBlockStyleInSelection(ed, style).children;
            var sp := SpanOf(ed.selection.value);
            |after| == |ed.children| &&
            forall i :: 0 <= i < |after| ==>
              after[i] == if Visited([i], sp) then Toggled(ed.children[i], style) else ed.children[i]
  {
    ToggleIsTopLevel(ed, style);
    ToggleTopLevelFromZero(ed.children, SpanOf(ed.selection.value), style);
  }

  /** The pointwise result from index 0, node by node. */
  lemma ToggleTopLevelFromZero(cs: seq<Node>, sp: Span, style: string)
    ensures forall i :: 0 <= i < |cs| ==>
              ToggleTopLevel(cs, 0, sp, style)[i] == if Visited([i], sp) then Toggled(cs[i], style) else cs[i]
  {
    forall i | 0 <= i < |cs|
      ensures ToggleTopLevel(cs, 0, sp, style)[i] == if Visited([i], sp) then Toggled(cs[i], style) else cs[i]
    {
      ToggleTopLevelAt(cs, 0, sp, style, i);
      assert 0 + i == i;
    }
  }

  /** Membership of the token flips on each selected element on its own:
      a mixed selection stays mixed, with every node inverted. */
  lemma ToggleFlipsEachNode(ed: Editor, style: string, i: nat)
    requires ed.selection.Some? && ValidToken(style)
    requires i < |ed.children| && ed.children[i].Element?
    requires Visited([i], SpanOf(ed.selection.value))
    ensures var n := ToggleBlockStyleInSelection(ed, style).children[i];
            n.Element? && (HasToken(n.styleName, style) <==> !HasToken(StyleNameOf(ed.children[i]), style))
  {
    ToggleBlockStyleEffect(ed, style);
  }

  /** In a document whose top-level nodes all carry a string `styleName`,
      the style is active exactly when some top-level node in the
      selection has the token. */
  lemma BlockStyleActiveTopLevel(ed: Editor, style: string)
    requires ed.selection.Some?
    requires forall i :: 0 <= i < |ed.children| ==> HasStyleName(ed.children[i])
    ensures IsBlockStyleActive(ed, style) <==>
              exists i :: 0 <= i < |ed.children| && Visited([i], SpanOf(ed.selection.value))
                          && HasToken(StyleNameOf(ed.children[i]), style)
  {
    var sp := SpanOf(ed.selection.value);
    if IsBlockStyleActive(ed, style) {
      ActiveHasNode(ed, style);
    }
    if exists i :: 0 <= i < |ed.children| && Visited([i], sp) && HasToken(StyleNameOf(ed.children[i]), style) {
      var i :| 0 <= i < |ed.children| && Visited([i], sp) && HasToken(StyleNameOf(ed.children[i]), style);
      NodeMakesActive(ed, style, i);
    }
  }

  /** In a document of styled blocks, the entries the test reads are the
      top-level nodes in the window. */
  lemma StyledEntries(ed: Editor)
    requires ed.selection.Some?
    requires forall i :: 0 <= i < |ed.children| ==> HasStyleName(ed.children[i])
    ensures SelectedHighest(ed, HasStyleName) == TopLevelInSpan(ed.children, 0, SpanOf(ed.selection.value))
  {
    HighestIsTopLevel(ed.children, 0, SpanOf(ed.selection.value), HasStyleName);
  }

  lemma ActiveHasNode(ed: Editor, style: string)
    requires ed.selection.Some?
    requires forall i :: 0 <= i < |ed.children| ==> HasStyleName(ed.children[i])
    requires IsBlockStyleActive(ed, style)
    ensures exists i :: 0 <= i < |ed.children| && Visited([i], SpanOf(ed.selection.value))
                        && HasToken(StyleNameOf(ed.children[i]), style)
  {
    StyledEntries(ed);
    var sp := SpanOf(ed.selection.value);
    var sn := SelectedHighest(ed, HasStyleName);
    var k :| 0 <= k < |sn| && HasToken(StyleNameOf(sn[k].node), style);
    TopLevelEntryAt(ed.children, sp, k);
    var i := sn[k].path[0];
    assert Visited([i], sp) && HasToken(StyleNameOf(ed.children[i]), style);
  }

  /** An entry of the top-level window is a top-level node at its index. */
  lemma TopLevelEntryAt(cs: seq<Node>, sp: Span, k: nat)
    requires k < |TopLevelInSpan(cs, 0, sp)|
    ensures var e := TopLevelInSpan(cs, 0, sp)[k];
            |e.path| == 1 && e.path[0] < |cs| && e.path == [e.path[0]]
            && e.node == cs[e.path[0]] && Visited([e.path[0]], sp)
  {
    var e := TopLevelInSpan(cs, 0, sp)[k];
    assert e.path == [e.path[0]];
  }

  lemma NodeMakesActive(ed: Editor, style: string, i: nat)
    requires ed.selection.Some?
    requires forall j :: 0 <= j < |ed.children| ==> HasStyleName(ed.children[j])
    requires i < |ed.children| && Visited([i], SpanOf(ed.selection.value))
    requires HasToken(StyleNameOf(ed.children[i]), style)
    ensures IsBlockStyleActive(ed, style)
  {
    StyledEntries(ed);
    var sn := TopLevelInSpan(ed.children, 0, SpanOf(ed.selection.value));
    TopLevelInSpanHas(ed.children, 0, SpanOf(ed.selection.value), i);
    assert 0 + i == i;
    var k :| 0 <= k < |sn| && sn[k] == Entry(ed.children[i], [i]);
    assert HasToken(StyleNameOf(sn[k].node), style);
  }

  /** One top-level node in the window appears among the entries. */
  lemma {:induction false} TopLevelInSpanHas(cs: seq<Node>, base: nat, sp: Span, i: nat)
    requires i < |cs| && Visited([base + i], sp)
    ensures Entry(cs[i], [base + i]) in TopLevelInSpan(cs, base, sp)
    decreases i
  {
    var head := if Visited([base], sp) then [Entry(cs[0], [base])] else [];
    var rest := TopLevelInSpan(cs[1..], base + 1, sp);
    assert TopLevelInSpan(cs, base, sp) == head + rest;
    if i == 0 {
      assert head == [Entry(cs[0], [base])];
    } else {
      TopLevelInSpanHas(cs[1..], base + 1, sp, i - 1);
      assert cs[1..][i - 1] == cs[i];
      assert (base + 1) + (i - 1) == base + i;
      assert Entry(cs[i], [base + i]) in rest;
    }
  }

  /** Every top-level node in the window appears among the entries. */
  lemma TopLevelInSpanComplete(cs: seq<Node>, base: nat, sp: Span)
    ensures forall i :: 0 <= i < |cs| && Visited([base + i], sp) ==>
              Entry(cs[i], [base + i]) in TopLevelInSpan(cs, base, sp)
  {
    forall i | 0 <= i < |cs| && Visited([base + i], sp)
      ensures Entry(cs[i], [base + i]) in TopLevelInSpan(cs, base, sp)
    {
      TopLevelInSpanHas(cs, base, sp, i);
    }
  }

  /** A selection with mixed style state flips per node rather than
      unifying: of two paragraphs where only the first is `big`, afterwards
      only the second is. */
  lemma MixedSelectionFlipsPerNode()
    ensures var ed := Editor([Element("p", Some("big"), [Text("a", map[])]),
                              Element("p", None, [Text("b", map[])])],
                             Some(Range(Point([0, 0], 0), Point([1, 0], 1))));
            var after := ToggleBlockStyleInSelection(ed, "big").children;
            !HasToken(after[0].styleName, "big") && HasToken(after[1].styleName, "big")
  {
    var ed := Editor([Element("p", Some("big"), [Text("a", map[])]),
                      Element("p", None, [Text("b", map[])])],
                     Some(Range(Point([0, 0], 0), Point([1, 0], 1))));
    var sp := SpanOf(ed.selection.value);
    assert !PointBefore(ed.selection.value.focus, ed.selection.value.anchor);
    assert sp == Span([0, 0], [1, 0]);
    VisitedTopLevel(0, sp);
    VisitedTopLevel(1, sp);
    assert Tokens("big") == ["big"] by { SplitPiece("big", ' '); }
    assert ValidToken("big");
    ToggleFlipsEachNode(ed, "big", 0);
    ToggleFlipsEachNode(ed, "big", 1);
  }

  // Inline styles

  /** The mark key of an inline style. */
  function InlineKey(style: string): (k: string)
    ensures StartsWith(k, "style-") && k[6..] == style
  {
    "style-" + style
  }

  /** What `Editor.marks` reports at the selection: None for `null`. */
  type Marks = Option<map<string, Value>>

  /** The test shared by `isInlineStyleActive` and the inline toggle:
      marks exist and the style key holds a truthy value. */
  predicate IsInlineStyleActive(marks: Marks, style: string) {
    marks.Some? && InlineKey(style) in marks.value && Truthy(marks.value[InlineKey(style)])
  }

  /** An `Editor.addMark` or `Editor.removeMark` request. */
  datatype MarkOp = AddMark(key: string, value: Value) | RemoveMark(key: string)

  /** `toggleInlineStyleInSelection(editor, style)`. */
  function ToggleInlineStyleInSelection(marks: Marks, style: string): (r: MarkOp)
    ensures r == RemoveMark(InlineKey(style)) <==> IsInlineStyleActive(marks, style)
    ensures r == AddMark(InlineKey(style), VBool(true)) <==> !IsInlineStyleActive(marks, style)
  {
    var key := "style-" + style;
    if marks.Some? && key in marks.value && Truthy(marks.value[key]) then RemoveMark(key)
    else AddMark(key, VBool(true))
  }

  /** The effect of a mark request on the marks of one run. */
  function ApplyMark(m: map<string, Value>, op: MarkOp): map<string, Value> {
    match op
    case AddMark(k, v) => m[k := v]
    case RemoveMark(k) => m - {k}
  }

  /** On a run whose style key is absent or `true`, toggling twice gives
      the marks back; every other mark key is never touched. */
  lemma InlineToggleTwice(m: map<string, Value>, style: string)
    requires InlineKey(style) !in m || m[InlineKey(style)] == VBool(true)
    ensures var once := ApplyMark(m, ToggleInlineStyleInSelection(Some(m), style));
            ApplyMark(once, ToggleInlineStyleInSelection(Some(once), style)) == m
  {
  }

  /** A key holding another truthy value is removed first and comes back
      as `true`, so the double toggle does not restore it. */
  lemma InlineToggleTwiceNormalizes()
    ensures var m := map[InlineKey("big") := VStr("yes")];
            var once := ApplyMark(m, ToggleInlineStyleInSelection(Some(m), "big"));
            ApplyMark(once, ToggleInlineStyleInSelection(Some(once), "big"))
            == map[InlineKey("big") := VBool(true)]
  {
  }

  /** `isMarkActive(editor, format)`: the mark holds exactly `true`. A failing
      `Editor.marks` counts as no marks. */
  predicate IsMarkActive(marks: Marks, format: string) {
    marks.Some? && format in marks.value && marks.value[format] == VBool(true)
  }

  /** `toggleMark(editor, format)`. */
  function ToggleMark(marks: Marks, format: string): (r: MarkOp)
    ensures r.RemoveMark? <==> IsMarkActive(marks, format)
    ensures r.key == format
    ensures !IsMarkActive(marks, format) ==> r == AddMark(format, VBool(true))
  {
    if IsMarkActive(marks, format) then RemoveMark(format) else AddMark(format, VBool(true))
  }

  /** One toggle flips whether the mark is active and touches no other
      key; on a run whose key is absent or `true`, a second toggle gives
      the marks back. */
  lemma MarkToggleFlips(m: map<string, Value>, format: string)
    ensures var once := ApplyMark(m, ToggleMark(Some(m), format));
            && (IsMarkActive(Some(once), format) <==> !IsMarkActive(Some(m), format))
            && (forall k :: k in m && k != format ==> k in once && once[k] == m[k])
            && (forall k :: k in once && k != format ==> k in m)
    ensures format !in m || m[format] == VBool(true) ==>
              var once := ApplyMark(m, ToggleMark(Some(m), format));
              ApplyMark(once, ToggleMark(Some(once), format)) == m
  {
  }

  /** A key holding another value, such as `false`, becomes `true`, so
      the double toggle does not restore it. */
  lemma MarkToggleTwiceNormalizes()
    ensures var m := map["bold" := VBool(false)];
            var once := ApplyMark(m, ToggleMark(Some(m), "bold"));
            ApplyMark(once, ToggleMark(Some(once), "bold")) == map[]
  {
    var m := map["bold" := VBool(false)];
    assert ApplyMark(m, ToggleMark(Some(m), "bold")) == map["bold" := VBool(true)];
  }

  /** `isMarkActive` is the stricter test: a truthy non-`true` value is
      active for the inline style test only. */
  lemma MarkActiveStricter(marks: Marks, style: string)
    ensures IsMarkActive(marks, InlineKey(style)) ==> IsInlineStyleActive(marks, style)
    ensures var m: Marks := Some(map[InlineKey(style) := VNum(1)]);
            IsInlineStyleActive(m, style) && !IsMarkActive(m, InlineKey(style))
  {
  }
}

=== FILE: tree.dfy ===
/** The document tree of the rich-text editor: text runs (leaves carrying
    mark keys) inside elements (a type, an optional `styleName`, children),
    with the editor's selection given as paths into that tree. */
module Tree {
  import opened Wrappers

  /** A primitive JavaScript value held under a mark key of a text run. */
  datatype Value = VBool(b: bool) | VStr(s: string) | VNum(n: int) | VNull

  /** JavaScript truthiness of a primitive value. */
  predicate Truthy(v: Value) {
    match v
    case VBool(b) => b
    case VStr(s) => s != ""
    case VNum(n) => n != 0
    case VNull => false
  }

  /** A node of the tree. `marks` holds every own key of a text run other
      than `text`. `styleName` is None when the element has no string
      `styleName` (absent, or of another type). */
  datatype Node =
    | Text(text: string, marks: map<string, Value>)
    | Element(kind: string, styleName: Option<string>, children: seq<Node>)

  /** A text run. */
  type Run = n: Node | n.Text? witness Text("", map[])

  /** A path of child indices from the editor root. */
  type Path = seq<nat>

  datatype Point = Point(path: Path, offset: int)

  /** A selection; whether it is backward is derived, not stored. */
  datatype Range = Range(anchor: Point, focus: Point)

  /** The editor: its top-level nodes and its (possibly null) selection. */
  datatype Editor = Editor(children: seq<Node>, selection: Option<Range>)

  /** `Range.isCollapsed`: anchor and focus are the same point. */
  predicate Collapsed(r: Range) {
    r.anchor == r.focus
  }

  /** `Node.string`: the concatenated text of every run below a node. */
  function NodeString(n: Node): string {
    match n
    case Text(t, _) => t
    case Element(_, _, cs) => StringAll(cs)
  }

  function StringAll(cs: seq<Node>): string
    decreases cs
  {
    if cs == [] then "" else NodeString(cs[0]) + StringAll(cs[1..])
  }

  /** Reference flattening: the text runs below a node, in document order. */
  function Leaves(n: Node): seq<Run> {
    match n
    case Text(_, _) => [n]
    case Element(_, _, cs) => LeavesAll(cs)
  }

  function LeavesAll(cs: seq<Node>): seq<Run>
    decreases cs
  {
    if cs == [] then [] else Leaves(cs[0]) + LeavesAll(cs[1..])
  }

  /** The in-order concatenation of the texts of a list of runs. */
  function Texts(rs: seq<Run>): string
    decreases |rs|
  {
    if rs == [] then "" else rs[0].text + Texts(rs[1..])
  }

  lemma {:induction false} TextsAppend(a: seq<Run>, b: seq<Run>)
    ensures Texts(a + b) == Texts(a) + Texts(b)
    decreases |a|
  {
    if a == [] {
      assert a + b == b;
    } else {
      assert (a + b)[0] == a[0];
      assert (a + b)[1..] == a[1..] + b;
      TextsAppend(a[1..], b);
    }
  }

  /** The runs of the reference flattening spell out the node's string. */
  lemma {:induction false} LeavesSpellString(n: Node)
    ensures Texts(Leaves(n)) == NodeString(n)
    decreases n, 1
  {
    match n
    case Text(t, _) =>
      assert Texts([n]) == t + Texts([]);
    case Element(_, _, cs) =>
      LeavesAllSpellString(cs);
  }

  lemma {:induction false} LeavesAllSpellString(cs: seq<Node>)
    ensures Texts(LeavesAll(cs)) == StringAll(cs)
    decreases cs, 0
  {
    if cs != [] {
      LeavesSpellString(cs[0]);
      LeavesAllSpellString(cs[1..]);
      TextsAppend(Leaves(cs[0]), LeavesAll(cs[1..]));
    }
  }

  /** `Path.compare`: -1, 0 or 1 by the first differing index; 0 when one
      path is an ancestor of (a prefix of) the other. */
  function Compare(p: Path, q: Path): int
    decreases |p|
  {
    if |p| == 0 || |q| == 0 then 0
    else if p[0] < q[0] then -1
    else if p[0] > q[0] then 1
    else Compare(p[1..], q[1..])
  }

  /** `Node.get` for a non-root path: None where the source would throw. */
  function NodeAt(children: seq<Node>, path: Path): Option<Node>
    decreases |path|
  {
    if |path| == 0 || path[0] >= |children| then None
    else if |path| == 1 then Some(children[path[0]])
    else match children[path[0]]
      case Text(_, _) => None
      case Element(_, _, cs) => NodeAt(cs, path[1..])
  }

  /** `Node.last` from a node: follow last children down to a text run or an
      element without children. The returned path is relative to `n`. */
  function LastDescent(n: Node): (r: (Node, Path))
    ensures r.0.Text? || r.0.children == []
    ensures r.1 == [] ==> r.0 == n
    ensures r.1 != [] ==> n.Element? && r.1[0] == |n.children| - 1
                          && NodeAt(n.children, r.1) == Some(r.0)
    ensures r.0.Text? ==> Leaves(n) != [] && Leaves(n)[|Leaves(n)| - 1] == r.0
  {
    match n
    case Text(_, _) => (n, [])
    case Element(_, _, cs) =>
      if cs == [] then (n, [])
      else
        var d := LastDescent(cs[|cs| - 1]);
        LastOfLeavesAll(cs);
        (d.0, [|cs| - 1] + d.1)
  }

  /** The last run below a list of nodes is the last run below its last
      node, when that node has any. */
  lemma {:induction false} LastOfLeavesAll(cs: seq<Node>)
    requires cs != []
    ensures var l := Leaves(cs[|cs| - 1]);
            l != [] ==> LeavesAll(cs) != [] && LeavesAll(cs)[|LeavesAll(cs)| - 1] == l[|l| - 1]
    decreases |cs|
  {
    if |cs| > 1 {
      LastOfLeavesAll(cs[1..]);
      assert cs[1..][|cs| - 2] == cs[|cs| - 1];
    } else {
      assert LeavesAll(cs) == Leaves(cs[0]) + [];
    }
  }

  /** A node found by walking the tree: the editor root or a node below it. */
  datatype Located = AtRoot | At(node: Node, path: Path)

  /** `Node.last(editor, [])`: the last node reached from the root. */
  function LastEntry(children: seq<Node>): (r: Located)
    ensures children == [] <==> r == AtRoot
    ensures r.At? ==> NodeAt(children, r.path) == Some(r.node)
    ensures r.At? ==> r.node.Text? || r.node.children == []
    ensures r.At? && r.node.Text? ==>
              LeavesAll(children) != [] && LeavesAll(children)[|LeavesAll(children)| - 1] == r.node
  {
    if children == [] then AtRoot
    else
      var d := LastDescent(children[|children| - 1]);
      LastOfLeavesAll(children);
      At(d.0, [|children| - 1] + d.1)
  }
}

=== FILE: wrappers.dfy ===
/** Small failure-carrying datatypes shared by every module of the model. */
module Wrappers {

  /** A JavaScript value that may be `undefined` (None) or present (Some). */
  datatype Option<+T> = None | Some(value: T)

  /** The outcome of evaluating an expression that may raise an exception:
      either a value, or a thrown error (a TypeError in the source, or an
      error raised by the editor library when a path does not resolve). */
  datatype Eval<+T> = Value(v: T) | Throws

}
